=== FILE: README.md ===
# Document portal: session bookkeeping, ingestion loops and model configuration

This project is a Dafny model of the local bookkeeping in the document portal. Its
retrieval-augmented pipeline (PDF extraction, document loaders, text splitting,
embeddings, the vector index and the chat models) is made of calls into foreign
libraries. What surrounds those calls is modelled here and its properties are proved:

- **Comparison sessions** (`DocumentCompare`, class `DocumentIngestion`):
  - A session directory `base_dir/session_id` is created. The session id is either
    supplied or generated as `session_<YYYYMMDD_HHMMSS>_<8 hex digits>`.
  - The two uploaded PDFs are saved only when both names end in ".pdf", ignoring case.
  - A PDF is turned into page-headed text that skips blank pages.
  - The session's PDFs are combined in sorted name order.
  - The session directory is emptied of its regular files.
  - Sessions other than the `keep_latest` greatest names are pruned.
- **Multi-document ingestion** (`MultiDocumentChat`, class `DocumentIngestor`):
  - The constructor creates a temporary directory and an index directory per session.
  - The ingestion loop keeps the uploads whose lower-cased suffix is ".pdf", ".docx" or
    ".txt", saves each one, runs the matching loader and collects the documents in
    upload order. It stops when nothing has been loaded after a supported upload.
  - The retriever is built with fixed settings: chunks of 1000 characters overlapping
    by 300, similarity search, 5 results.
- **Model configuration** (`ModelLoader`, class `ModelLoader`):
  - The three provider API keys are checked.
  - The provider key is `LLM_PROVIDER`, defaulting to "groq".
  - The chat client is chosen from the selected block's `provider` field. Temperature
    defaults to 0.2 and max tokens to 2048, each only when absent.
  - The embedding model is looked up in the configuration.

Shared modules:

- `FileSystem`:
  - A tree of files and directories, keyed by path components.
  - Class `Disk` has the operations the core calls: `mkdir(parents=True, exist_ok=True)`,
    writing a file, `unlink` and `rmdir`. Each operation comes with the condition under
    which the operating system refuses it.
- `Text`: the string operations of Python the core relies on. These are `lower`,
  `endswith`, `strip`, `join`, `str(int)`, `Path.suffix`, zero-padded `strftime` fields
  and `uuid.hex`.
- `Order`: Python's string order and `sorted`.
- `Session`: session identifiers, and the proof that generated identifiers sort in
  creation order. Pruning relies on this to keep the newest sessions.

The clock, `uuid4`, the environment, the parsed configuration, the PDF opener and the
document loaders are parameters.

An upload named ".pdf" (any case) is saved by `save_uploaded_file`. `combine_documents`
never reads it, because `Path(".pdf").suffix` is empty
(`DocumentCompare.BareExtensionSavedButNotCombined`).

## Model

| member | source | states |
|---|---|---|
| Text.LowerFolds | src/document_compare/data_ingestion.py:52 | `lower()` leaves no upper-case letter, turns each upper-case letter into the letter 32 code points above it, keeps every other character in place, and is idempotent |
| Text.Suffix | src/document_compare/data_ingestion.py:104 | `Path(name).suffix` of one component, by the rule of CPython up to 3.13 (later releases treat leading dots differently); its shape is stated by `SuffixShape`, `SuffixOfStemAndExtension` and `SuffixWithoutInnerDot` |
| Text.Extension | src/multi_document_chat/data_ingestion.py:53 | `Path(name).suffix.lower()`; `ExtensionIsLowerOfSuffix` proves it equals lower-casing the suffix |
| Text.LastIndexOfIsLast | src/multi_document_chat/data_ingestion.py:53 | the index `rfind` reports holds the character, and no later position does |
| Text.ExtensionIsLowerOfSuffix | src/multi_document_chat/data_ingestion.py:53 | the extension computed from the last dot is `Path(name).suffix.lower()` |
| Text.SuffixShape | src/multi_document_chat/data_ingestion.py:53 | a suffix is empty or a dot followed by at least one non-dot character, and it is a proper tail of the name |
| Text.SuffixOfStemAndExtension | src/multi_document_chat/data_ingestion.py:53 | a non-empty stem followed by "." and a dot-free extension has exactly that extension as its suffix |
| Text.SuffixWithoutInnerDot | src/multi_document_chat/data_ingestion.py:53 | a name with no dot after its first character has an empty suffix |
| Text.IsBlank | src/document_compare/data_ingestion.py:83 | `text.strip()` is empty exactly when every character is Python whitespace; `PagesTextEmptyIffAllBlank` relies on it |
| Text.Join | src/document_compare/data_ingestion.py:89 | `sep.join(parts)`; `JoinEmptyIff` states when the join is empty |
| Text.JoinEmptyIff | src/document_compare/data_ingestion.py:89 | joining non-empty parts gives "" exactly when there are no parts |
| Text.Decimal | src/document_compare/data_ingestion.py:85 | `str(n)` is a non-empty digit string without leading zeros |
| Text.DecimalRoundTrip | src/document_compare/data_ingestion.py:85 | the digits of `str(n)` read back as `n` |
| Text.Pad | src/document_compare/data_ingestion.py:21 | a zero-padded field has exactly the field width and only digits |
| Text.PadRoundTrip | src/document_compare/data_ingestion.py:21 | a zero-padded field reads back as its value |
| Text.Hex | src/document_compare/data_ingestion.py:21 | `uuid.hex` has exactly the requested width and only lower-case hexadecimal digits |
| Text.HexRoundTrip | src/document_compare/data_ingestion.py:21 | the hexadecimal digits read back as the number they render |
| Order.LexLessIrreflexive | src/document_compare/data_ingestion.py:103 | no name sorts before itself |
| Order.LexLessAsymmetric | src/document_compare/data_ingestion.py:103 | two names never sort before each other |
| Order.LexLessTransitive | src/document_compare/data_ingestion.py:103 | string order is transitive |
| Order.LexLessTotal | src/document_compare/data_ingestion.py:103 | two different names are ordered one way or the other |
| Order.LexLessCommonPrefix | src/document_compare/data_ingestion.py:21 | a shared prefix does not change the order |
| Order.LexLessExtend | src/document_compare/data_ingestion.py:21 | the order of equal-length prefixes decides the order of the extended strings |
| Order.LeastExists | src/document_compare/data_ingestion.py:103 | a non-empty set of names has a least element |
| Order.LeastUnique | src/document_compare/data_ingestion.py:103 | the least element is unique |
| Order.SortedNames | src/document_compare/data_ingestion.py:103 | `sorted` lists each name of the set exactly once, in strictly increasing order |
| Order.Reversed | src/document_compare/data_ingestion.py:123-126 | reversing puts element i at position n-1-i |
| Order.SortedDescending | src/document_compare/data_ingestion.py:123-126 | `sorted(..., reverse=True)` lists each name once, in strictly decreasing order |
| Order.SliceStart | src/document_compare/data_ingestion.py:128 | `xs[k:]` holds exactly the positions whose index, or negative index for a negative `k`, is at least `k`: a non-negative `k` drops `min(k, n)` elements and a negative `k` keeps the last `min(-k, n)` |
| Session.Stamp | src/document_compare/data_ingestion.py:21 | `%Y%m%d_%H%M%S` is 15 characters: decimal digits with an underscore at position 8 |
| Session.GeneratedId | src/document_compare/data_ingestion.py:21 | the f-string `session_<stamp>_<uuid.hex[:8]>`; its shape is stated by `GeneratedIdShape`, its order by `GeneratedIdOrderIsCreationOrder` |
| Session.ResolveSessionId | src/document_compare/data_ingestion.py:21 | a non-empty supplied id is used verbatim; otherwise the generated id is used; the result is never empty |
| Session.GeneratedIdShape | src/document_compare/data_ingestion.py:21 | a generated id is 32 characters: "session_", the 15-character stamp, "_", and the first 8 characters of `uuid.hex`, all lower-case hexadecimal digits |
| Session.GeneratedIdIsOneComponent | src/document_compare/data_ingestion.py:21-22 | a generated id holds no separator and is not "." or empty, so `base_dir / session_id` is directly inside `base_dir` |
| Session.PadOrder | src/document_compare/data_ingestion.py:21 | zero-padded fields of the same width sort as their values |
| Session.StampOrder | src/document_compare/data_ingestion.py:21 | an earlier timestamp gives a smaller stamp |
| Session.GeneratedIdsFollowTime | src/document_compare/data_ingestion.py:21 | an id generated earlier sorts before one generated later |
| Session.BeforeTotal | src/document_compare/data_ingestion.py:21 | two different timestamps are ordered one way or the other |
| Session.GeneratedIdOrderIsCreationOrder | src/document_compare/data_ingestion.py:21 | for distinct timestamps, ids sort exactly in creation order (both directions) |
| FileSystem.Components | src/multi_document_chat/data_ingestion.py:20-23 | `Path(text)` keeps only non-empty, non-"." components without separators |
| FileSystem.ComponentsOfJoin | src/multi_document_chat/data_ingestion.py:20-23 | splitting a "/"-joined path gives back its components |
| FileSystem.ComponentsOfConcat | src/multi_document_chat/data_ingestion.py:20-23 | the components of `a + "/" + b` are those of `a` followed by those of `b` |
| FileSystem.ComponentsOfEmptyAndDot | src/multi_document_chat/data_ingestion.py:20-23 | `""` and `"."` have no components |
| FileSystem.ComponentsSkipPiece | src/multi_document_chat/data_ingestion.py:20-23 | a piece without components (such as `""` or `"."`) between two separators adds none: `a/./b` and `a//b` have the components of `a` then `b` |
| FileSystem.ChildNames | src/document_compare/data_ingestion.py:33 | `iterdir()` lists exactly the names of the entries directly inside the directory |
| FileSystem.SubdirNames | src/document_compare/data_ingestion.py:124 | the names kept by `d.is_dir()` are exactly the sub-directories |
| FileSystem.NothingInsideNonDirectory | src/document_compare/data_ingestion.py:32 | a path that is not a directory has no entries inside it |
| FileSystem.WriteWellFormed | src/document_compare/data_ingestion.py:55-59 | writing a file whose parent is a directory keeps the tree well formed |
| FileSystem.WithDirs | src/document_compare/data_ingestion.py:23 | `mkdir(parents=True, exist_ok=True)` makes every prefix a directory and changes nothing else |
| FileSystem.WithDirsWellFormed | src/document_compare/data_ingestion.py:23 | creating directories keeps the tree well formed |
| FileSystem.WithoutFilesAmongAll | src/document_compare/data_ingestion.py:33-35 | unlinking the files among all listed names removes every file of the directory |
| FileSystem.WithoutFilesAmongStep | src/document_compare/data_ingestion.py:33-35 | one more listed name removes that entry if and only if it is a regular file |
| FileSystem.WithoutFiles | src/document_compare/data_ingestion.py:33-35 | the tree once the regular files directly inside a directory are unlinked; `WithoutFilesAmongAll` and `WithoutFilesKeepsDirectories` state what goes and what stays |
| FileSystem.WithoutFilesKeepsDirectories | src/document_compare/data_ingestion.py:32-36 | removing a directory's files keeps the tree well formed, keeps every directory, changes no remaining entry, and leaves exactly the sub-directories inside |
| FileSystem.UnlinkWellFormed | src/document_compare/data_ingestion.py:35 | unlinking a file keeps the tree well formed |
| FileSystem.RemoveEmptyDirWellFormed | src/document_compare/data_ingestion.py:132 | removing an empty directory keeps the tree well formed |
| FileSystem.Disk.MakeDirs | src/document_compare/data_ingestion.py:23 | succeeds exactly when no prefix is a regular file; the new tree is the old one with the directories made |
| FileSystem.Disk.WriteFile | src/document_compare/data_ingestion.py:55-59 | succeeds exactly when the parent is a directory and the path is not; the file then holds the bytes |
| FileSystem.Disk.Unlink | src/document_compare/data_ingestion.py:35 | succeeds exactly on a regular file and removes only it |
| FileSystem.Disk.RemoveDir | src/document_compare/data_ingestion.py:132 | succeeds exactly on an empty directory other than the root and removes only it |
| DocumentCompare.IsPdfUploadName | src/document_compare/data_ingestion.py:52 | `name.lower().endswith(".pdf")`; related to the listing test by `PdfTestsAgreeExceptBareExtension` |
| DocumentCompare.IsPdfEntryName | src/document_compare/data_ingestion.py:104 | `file.suffix.lower() == ".pdf"`; related to the upload test by `PdfTestsAgreeExceptBareExtension` |
| DocumentCompare.PdfTestsAgreeExceptBareExtension | src/document_compare/data_ingestion.py:52 | the listing test (suffix is ".pdf") holds exactly when the upload test (ends with ".pdf") holds and the name is longer than 4 characters |
| DocumentCompare.BareExtensionSavedButNotCombined | src/document_compare/data_ingestion.py:104 | the name ".pdf" passes the upload test but not the listing test |
| DocumentCompare.NonBlankPages | src/document_compare/data_ingestion.py:80-85 | the selected pages are exactly the non-blank ones, in strictly increasing order |
| DocumentCompare.PageBlocks | src/document_compare/data_ingestion.py:84-85 | one block per selected page |
| DocumentCompare.PagesTextEmptyIffAllBlank | src/document_compare/data_ingestion.py:79-89 | the text is "" exactly when every page is blank |
| DocumentCompare.PdfText | src/document_compare/data_ingestion.py:70-95 | the outcome of `read_pdf`: an error for a missing, unopenable or encrypted file, else the joined page blocks; `ReadPdf` is proved equal to it and `PagesTextEmptyIffAllBlank` says when the text is empty |
| DocumentCompare.PdfEntries | src/document_compare/data_ingestion.py:103-104 | the names `combine_documents` reads, in listing order; `PdfEntriesMembers` states which they are |
| DocumentCompare.PdfEntriesMembers | src/document_compare/data_ingestion.py:104 | the selection keeps exactly the regular files whose lower-cased suffix is ".pdf" |
| DocumentCompare.DocumentPartsReadSelected | src/document_compare/data_ingestion.py:103-106 | visiting the listing reads exactly the selected PDFs, in listing order |
| DocumentCompare.DocumentParts | src/document_compare/data_ingestion.py:103-106 | the parts the combining loop collects; `DocumentPartsSpec` states their number, order and contents and when the loop fails |
| DocumentCompare.ReadPartsSpec | src/document_compare/data_ingestion.py:105-106 | reading succeeds exactly when every PDF reads; then part k is "Document: <name k>\n<text k>" |
| DocumentCompare.DocumentPartsSpec | src/document_compare/data_ingestion.py:103-108 | combining succeeds exactly when every selected PDF reads; then there is one part per selected PDF, in order |
| DocumentCompare.DocumentPartsStep | src/document_compare/data_ingestion.py:103-106 | one loop step either fails, appends the part of a selected PDF, or leaves the parts unchanged |
| DocumentCompare.CombinedText | src/document_compare/data_ingestion.py:97-116 | the outcome of `combine_documents` over the sorted listing; `CombineDocuments` is proved equal to it and `DocumentPartsSpec` states its parts |
| DocumentCompare.KeepLatestSplit | src/document_compare/data_ingestion.py:123-128 | kept and deleted folders partition the sub-directories; every deleted name is smaller than every kept one; for `keep >= 0`, `min(keep, n)` are kept and `max(0, n - keep)` deleted |
| DocumentCompare.DefaultKeepsThree | src/document_compare/data_ingestion.py:118-128 | with the default `keep_latest=3`, the three greatest names (all when fewer) are kept and the rest deleted |
| DocumentCompare.NewestSessionsKept | src/document_compare/data_ingestion.py:118-128 | a deleted session with a generated id was created in an earlier second than every kept session with a generated id from a different second |
| DocumentCompare.RemoveSessions | src/document_compare/data_ingestion.py:128-132 | the deletion loop over the doomed folders; `RemoveSessionsResult` and `RemoveSessionsFrame` state its outcome and what it leaves alone |
| DocumentCompare.RemoveSessionsFrame | src/document_compare/data_ingestion.py:128-132 | nothing outside the deleted folders changes: files of `base_dir`, kept sessions and their contents |
| DocumentCompare.RemoveOneSession | src/document_compare/data_ingestion.py:129-132 | deleting a folder without sub-directories removes it and its files and nothing else |
| DocumentCompare.OtherFolderUntouched | src/document_compare/data_ingestion.py:128-132 | deleting one folder leaves every other folder as it was |
| DocumentCompare.RemoveSessionsStep | src/document_compare/data_ingestion.py:129-132 | one folder's deletion stops the loop exactly when the folder has a sub-directory |
| DocumentCompare.RemoveSessionsResult | src/document_compare/data_ingestion.py:128-132 | pruning succeeds exactly when no deleted folder has a sub-directory; it then removes exactly those folders and the files in them |
| DocumentCompare.DoomedAreDistinctDirs | src/document_compare/data_ingestion.py:123-128 | the folders after position `keep_latest` are distinct sub-directories of `base_dir` |
| DocumentCompare.CleanOldSessionsResult | src/document_compare/data_ingestion.py:118-132 | for the folders `clean_old_sessions` picks, pruning succeeds exactly when none of them has a sub-directory, and then exactly those folders and their files are gone |
| DocumentCompare.DocumentIngestion.Create | src/document_compare/data_ingestion.py:15-23 | the session path is `base_dir` followed by the components of the resolved id (so "a/b" nests and "." is `base_dir`); it is created with its parents, and this succeeds exactly when no prefix is a file |
| DocumentCompare.DocumentIngestion.RemoveFiles | src/document_compare/data_ingestion.py:33-35 | unlinking in any listing order removes exactly the regular files directly inside the directory |
| DocumentCompare.DocumentIngestion.DeleteExistingFiles | src/document_compare/data_ingestion.py:27-36 | only when the session directory exists are its regular files removed; otherwise nothing changes |
| DocumentCompare.DocumentIngestion.SaveUploadedFile | src/document_compare/data_ingestion.py:44-68 | succeeds exactly when both names end in ".pdf" (any case) and both writes are possible; a rejected name writes nothing; on success both files are written, the pair of paths is returned, and the actual file wins when the names coincide |
| DocumentCompare.DocumentIngestion.ReadPdf | src/document_compare/data_ingestion.py:70-95 | fails on a missing, unopenable or encrypted file; otherwise returns the page-headed text of the non-blank pages |
| DocumentCompare.DocumentIngestion.CombineDocuments | src/document_compare/data_ingestion.py:97-116 | fails when the session directory is missing or a selected PDF fails; otherwise joins the parts of the selected PDFs with blank lines, in sorted order |
| DocumentCompare.DocumentIngestion.CleanOldSessions | src/document_compare/data_ingestion.py:118-137 | fails when `base_dir` is missing; otherwise deletes the folders after the first `keep_latest` in descending order and passes exactly when all of them were removed |
| MultiDocumentChat.LoaderFor | src/multi_document_chat/data_ingestion.py:65-74 | ".pdf" selects the PDF loader, ".docx" the Word loader, ".txt" the text loader |
| MultiDocumentChat.Supported | src/multi_document_chat/data_ingestion.py:12 | keeps exactly the uploads whose lower-cased suffix is supported |
| MultiDocumentChat.IngestOne | src/multi_document_chat/data_ingestion.py:53-81 | an upload is skipped exactly when its suffix is unsupported; a completed step has saved the upload and appended its documents, leaving the list non-empty |
| MultiDocumentChat.Ingest | src/multi_document_chat/data_ingestion.py:51-82 | the loop of `ingest_files`; `IngestSuccess`, `NoDocumentsIff`, `IngestSkipsUnsupported` and `IngestFrame` state its outcome |
| MultiDocumentChat.IngestSkipsUnsupported | src/multi_document_chat/data_ingestion.py:53-57 | ingesting all uploads equals ingesting only the supported ones |
| MultiDocumentChat.NothingSupported | src/multi_document_chat/data_ingestion.py:51-85 | with no supported upload nothing is written and the empty list goes on to the retriever |
| MultiDocumentChat.LoadAll | src/multi_document_chat/data_ingestion.py:65-77 | the loaders' documents for the supported uploads, concatenated in order; `IngestSuccess` ties it to the loop |
| MultiDocumentChat.SaveAll | src/multi_document_chat/data_ingestion.py:58-61 | each supported upload written in order; `IngestSuccess` ties it to the loop |
| MultiDocumentChat.IngestSuccess | src/multi_document_chat/data_ingestion.py:52-77 | when the loop completes, the documents are the loaders' results concatenated in upload order, and the tree has each supported upload saved in order |
| MultiDocumentChat.NoEmptyErrorAfterDocuments | src/multi_document_chat/data_ingestion.py:79-81 | once a document is collected, "No valid documents loaded" cannot occur |
| MultiDocumentChat.NoDocumentsIff | src/multi_document_chat/data_ingestion.py:79-81 | "No valid documents loaded" occurs exactly when the first supported upload is saved and loads no documents |
| MultiDocumentChat.IngestFrame | src/multi_document_chat/data_ingestion.py:58-61 | the loop changes only entries directly inside the session's temporary directory |
| MultiDocumentChat.AsPathOfJoined | src/multi_document_chat/data_ingestion.py:20-21 | a string argument names the directory whose components it joins |
| MultiDocumentChat.MakeAll | src/multi_document_chat/data_ingestion.py:22-30 | the directory creations in order, stopping at the first failure; `MakeAllResult` states what a full run leaves |
| MultiDocumentChat.MakeAllResult | src/multi_document_chat/data_ingestion.py:22-30 | when all are created, each is a directory and every earlier entry is unchanged |
| MultiDocumentChat.DocumentIngestor.MakeInitDirs | src/multi_document_chat/data_ingestion.py:22-30 | runs the four directory creations of the constructor in order |
| MultiDocumentChat.DocumentIngestor.Open | src/multi_document_chat/data_ingestion.py:16-46 | succeeds exactly when the four directories are made, the API keys are present and the configuration is a mapping; the session directories are `temp_dir / id` and `faiss_dir / id` with the same id split into components, and the loader holds the configuration |
| MultiDocumentChat.DefaultsRejectedAsWritten | src/multi_document_chat/data_ingestion.py:16-23 | neither string default can be passed to `.mkdir` as written |
| MultiDocumentChat.DocumentIngestor.Create | src/multi_document_chat/data_ingestion.py:16-46 | as written: a string `temp_dir` fails with nothing created; a path `temp_dir` with a string `faiss_dir` fails after making only `temp_dir`; with two paths it behaves exactly as `Open`: it creates the four directories, succeeds exactly when they are made, the API keys are present and the configuration is a mapping, and on success holds both session directories, the resolved id and the configuration |
| MultiDocumentChat.DocumentIngestor.CreateFixed | src/multi_document_chat/data_ingestion.py:16-46 | with `Path(...)` applied to both arguments: the four directories are made in order; the result succeeds exactly when they all are made, the keys are present and the configuration is a mapping; it then has the session directories `Path(temp_dir) / id` and `Path(faiss_dir) / id` and holds the configuration |
| MultiDocumentChat.DocumentIngestor.CreateRetriever | src/multi_document_chat/data_ingestion.py:92-117 | succeeds exactly when the embedding model loads and splitting, embedding and saving the index succeed; chunk size 1000, overlap 300 (less than the size), similarity search, k = 5, index in the session's index directory |
| MultiDocumentChat.DocumentIngestor.IngestFiles | src/multi_document_chat/data_ingestion.py:48-90 | apart from the index files `save_local` writes, which are not modelled, the tree after the call is the ingestion loop's; succeeds exactly when the loop completes, the embedding model loads and the index is built over the loop's documents; the retriever holds those documents, the loaded embeddings, the session's index directory, chunks of 1000 with overlap 300 and similarity search for the 5 nearest chunks |
| ModelLoader.ApiKeys | utils/model_loader.py:32 | `api_keys` has exactly the three required names, each with its environment value |
| ModelLoader.MissingKeys | utils/model_loader.py:33 | `missing` holds exactly the required names that are absent or empty, in their original order |
| ModelLoader.MissingKeysEmptyIff | utils/model_loader.py:33-38 | `missing` is empty exactly when every required variable is set and non-empty |
| ModelLoader.GetOr | utils/model_loader.py:71-72 | the default is used only when the key is absent |
| ModelLoader.ProviderKey | utils/model_loader.py:61 | `LLM_PROVIDER` is used when set (even when empty), else "groq" |
| ModelLoader.ClientFor | utils/model_loader.py:68-103 | dispatch on the block's `provider` field: google, groq or openai succeed and build that client; the client gets the model name, the temperature (0.2 only when absent), max tokens (2048 only when absent) for google and openai, and the matching key for groq and openai; the model name is null when absent, as `.get` gives; any other provider fails |
| ModelLoader.LlmFromConfig | utils/model_loader.py:59-68 | a provider key absent from the `llm` mapping fails with "Provider '<key>' not found in config."; a success comes from the selected block |
| ModelLoader.KeySelectsBlockOnly | utils/model_loader.py:63-68 | two keys that select equal blocks give the same client |
| ModelLoader.ExplicitNullTemperatureKept | utils/model_loader.py:71 | an explicit null temperature is passed on, not replaced by 0.2 |
| ModelLoader.ModelLoader.ValidateEnv | utils/model_loader.py:25-40 | always records the three keys; passes exactly when all are set and non-empty, leaving the loader valid |
| ModelLoader.ModelLoader.Create | utils/model_loader.py:18-23 | succeeds exactly when the keys are present and the configuration is a mapping |
| ModelLoader.ModelLoader.LoadEmbeddings | utils/model_loader.py:42-52 | succeeds exactly when `embedding_model.model_name` exists in the loaded configuration, and then the client uses that model name |
| ModelLoader.ModelLoader.LoadLlm | utils/model_loader.py:54-103 | a client exists only when the `llm` mapping has a block for the provider key; the groq and openai clients carry the key recorded at start-up, which is non-empty |

## Left out

- `src/multi_document_chat/retrieval.py`, `src/document_analyser/data_analysis.py`, `src/single_document_chat/data_ingestion.py`, `model/models.py` and `test.py` are not part of this model. They are prompt chains, model calls, stubs, schemas and a manual script.
- PDF text extraction (`fitz`), the PDF, Word and text loaders, the text splitter, the embedding client, the FAISS index and the chat clients are foreign.
  - The PDF opener and the loaders are parameters.
  - The clients are returned as the arguments they would be built with.
- Splitting, embedding and building the FAISS index are one foreign outcome, the `build` parameter of `CreateRetriever` and `IngestFiles`. The retriever records only its settings.
  - FAISS refuses an empty list, as when no upload is supported; the model leaves that to the `build` argument.
- `MultiDocumentChat.DocumentIngestor.IngestFiles`: the index files that `save_local` writes under the session's index directory are not modelled, so its tree is the ingestion loop's alone.
- `MultiDocumentChat.DocumentIngestor.CreateRetriever`: the index files that `save_local` writes under the session's index directory are not modelled.
- `load_dotenv` and `load_config` read files. The environment and the parsed configuration are parameters.
  - YAML mapping keys are strings.
  - Temperature and token values are opaque.
- The clock and `uuid4` are parameters. Timestamps are limited to years 1000 to 9999, where `%Y` has four digits.
- Logging is left out.
- `DocumentCompare.NewestSessionsKept`: only sessions created in different seconds are ordered by creation time. Two ids generated in the same second share the stamp, so `sorted(..., reverse=True)` decides between them by the first eight hex digits of the uuid, not by which came first.
- `DocumentPortalException` wrapping is collapsed into a single error result per operation. It carries the message of the exception that leaves the operation: the re-raised `DocumentPortalException`'s message where the source wraps one, and for an error Python itself raises (an `OSError`, an `AttributeError`) a short description of it.
  - Python's exception types are not distinguished.
  - The text of the unsupported-provider error omits the rendered value.
- Lower-casing is modelled for ASCII letters only. No other character lower-cases to a character of ".pdf", ".docx" or ".txt", so every comparison in the core decides the same.
- DocumentCompare.DocumentIngestion.Create: a supplied session id is split into components as `pathlib` does, but a ".." component is kept as a directory name rather than resolved, and a leading "/" is dropped, whereas `base_dir / "/x"` is "/x".
- MultiDocumentChat.DocumentIngestor.Open: the same holds for a supplied `sesion_id` with ".." components or a leading "/".
- MultiDocumentChat.DocumentIngestor.CreateFixed: the same holds, through `Open`.
- Upload names are single path components. A name containing a separator, and the way `Path(name)` would take its last component, are not modelled.
- Paths are sequences of components from one root, so absolute and relative paths are not told apart.
  - The Windows-style default `base_dir` of the comparison ingestor is taken as a given path.
  - Ordering is POSIX ordering: Windows' case-insensitive path comparison is not modelled.
- Symbolic links, permissions, disk-full and other I/O failures are not modelled. Only the failures a directory tree implies are: a missing parent, a directory in place of a file, a file in place of a directory, and a directory that is not empty.
- `ModelLoader.ModelLoader.LoadLlm` requires the loader's invariant. The invariant is that every key was read and is non-empty, which holds for every loader whose constructor returned.

## Findings

| source | as written | input that shows it | evidently intended | confidence | as-written member | corrected member |
|---|---|---|---|---|---|---|
| src/multi_document_chat/data_ingestion.py:22-23 | `.mkdir` is called on `temp_dir` and `faiss_dir` as given, and both are declared as `str` with string defaults | `DocumentIngestor()`: the default `temp_dir` is the string "data/multi_document_chat", which has no `mkdir`, so the constructor always fails | convert each argument with `Path(...)` before creating the directories | high; not executed | MultiDocumentChat.DocumentIngestor.Create, MultiDocumentChat.DefaultsRejectedAsWritten | MultiDocumentChat.DocumentIngestor.CreateFixed, MultiDocumentChat.AsPathOfJoined |

=== FILE: document_compare.dfy ===
/** The comparison-session ingestor (`DocumentIngestion`): it keeps the two
    PDFs of a comparison in a per-session directory under a base directory,
    turns each PDF into page-headed text, concatenates the session's PDFs in
    name order, empties the session directory and prunes old sessions. */
module DocumentCompare {
  import opened Wrappers
  import opened Text
  import opened Order
  import opened FileSystem
  import opened Session

  /** What `fitz.open` makes of a file: the text of each page and whether
      the document is encrypted. */
  datatype PdfDocument = PdfDocument(pages: seq<string>, encrypted: bool)

  const SessionDirError: string := "session directory could not be created"
  const SaveError: string := "Error saving files."
  const ReadError: string := "Error reading pdf"
  const CombineError: string := "Error combining documents"
  const CleanError: string := "Error cleaning old sessions."

  /** The default of `clean_old_sessions(keep_latest=3)`. */
  const DefaultKeepLatest: int := 3

  // ---------------------------------------------------------------------
  // The two PDF tests

  /** The upload test of `save_uploaded_file`: the lower-cased name ends in ".pdf". */
  predicate IsPdfUploadName(name: string)
  {
    EndsWith(Lower(name), ".pdf")
  }

  /** The listing test of `combine_documents`: the lower-cased suffix is ".pdf". */
  predicate IsPdfEntryName(name: string)
  {
    Extension(name) == ".pdf"
  }

  /** The two tests agree on every name except the bare extension (".pdf",
      ".PDF", ...): such an upload is saved but never combined. */
  lemma PdfTestsAgreeExceptBareExtension(name: string)
    ensures IsPdfEntryName(name) <==> IsPdfUploadName(name) && |name| > 4
  {
    if IsPdfUploadName(name) && |name| > 4 {
      UploadNameIsEntryName(name);
    }
    if IsPdfEntryName(name) {
      EntryNameIsUploadName(name);
    }
  }

  lemma UploadNameIsEntryName(name: string)
    requires IsPdfUploadName(name) && |name| > 4
    ensures IsPdfEntryName(name)
  {
    var stem, ext := name[..|name| - 4], name[|name| - 4..];
    var low := Lower(name)[|name| - 4..];
    assert low == ".pdf";
    assert LowerChar(ext[0]) == low[0] == '.';
    assert LowerChar(ext[1]) == low[1] == 'p';
    assert LowerChar(ext[2]) == low[2] == 'd';
    assert LowerChar(ext[3]) == low[3] == 'f';
    assert stem + ext == name;
    SuffixOfStemAndExtension(stem, ext);
    assert Lower(ext) == ".pdf";
    ExtensionIsLowerOfSuffix(name);
  }

  lemma EntryNameIsUploadName(name: string)
    requires IsPdfEntryName(name)
    ensures IsPdfUploadName(name) && |name| > 4
  {
    ExtensionIsLowerOfSuffix(name);
    var ext := Suffix(name);
    SuffixShape(name);
    assert |ext| == 4;
    assert name[|name| - 4..] == ext;
    assert Lower(name)[|name| - 4..] == Lower(ext);
  }

  lemma BareExtensionSavedButNotCombined()
    ensures IsPdfUploadName(".pdf") && !IsPdfEntryName(".pdf")
  {
    PdfTestsAgreeExceptBareExtension(".pdf");
    assert Lower(".pdf") == ".pdf";
  }

  // ---------------------------------------------------------------------
  // read_pdf

  /** The header put before the text of page `i` (0-based). */
  function PageHeader(i: nat): string
  {
    "\n --- Page " + Decimal(i + 1) + " --- \n"
  }

  /** The indices below `n` of the pages that have text (`text.strip()` is
      non-empty), in ascending order. */
  function NonBlankPages(pages: seq<string>, n: nat): (idx: seq<nat>)
    requires n <= |pages|
    ensures forall k :: 0 <= k < |idx| ==> idx[k] < n && !IsBlank(pages[idx[k]])
    ensures forall k, l :: 0 <= k < l < |idx| ==> idx[k] < idx[l]
    ensures forall i :: 0 <= i < n && !IsBlank(pages[i]) ==> i in idx
  {
    if n == 0 then []
    else NonBlankPages(pages, n - 1) + (if IsBlank(pages[n - 1]) then [] else [n - 1])
  }

  /** The blocks for the listed pages: each page's header followed by its text. */
  function PageBlocks(pages: seq<string>, idx: seq<nat>): (blocks: seq<string>)
    requires forall k :: 0 <= k < |idx| ==> idx[k] < |pages|
    ensures |blocks| == |idx|
  {
    seq(|idx|, k requires 0 <= k < |idx| => PageHeader(idx[k]) + pages[idx[k]])
  }

  /** The text `read_pdf` returns for a document that opened unencrypted. */
  function PagesText(pages: seq<string>): string
  {
    Join(PageBlocks(pages, NonBlankPages(pages, |pages|)), "\n")
  }

  /** The text is empty exactly when every page is blank. */
  lemma PagesTextEmptyIffAllBlank(pages: seq<string>)
    ensures PagesText(pages) == "" <==> forall i :: 0 <= i < |pages| ==> IsBlank(pages[i])
  {
    var idx := NonBlankPages(pages, |pages|);
    var blocks := PageBlocks(pages, idx);
    JoinEmptyIff(blocks, "\n");
    if idx != [] {
      assert !IsBlank(pages[idx[0]]);
    }
  }

  /** The outcome of `read_pdf(path)` on tree `t`, with `open` standing for
      `fitz.open` (None: the file is not a document it can open). */
  function PdfText(t: Tree, path: Path, open: Bytes -> Option<PdfDocument>): Result<string>
  {
    if !IsFile(t, path) then Err(ReadError)
    else
      match open(t[path].data)
      case None => Err(ReadError)
      case Some(doc) => if doc.encrypted then Err(ReadError) else Ok(PagesText(doc.pages))
  }

  // ---------------------------------------------------------------------
  // combine_documents

  function DocumentPart(name: string, text: string): string
  {
    "Document: " + name + "\n" + text
  }

  /** The names among `names` that `combine_documents` reads: regular files
      whose lower-cased suffix is ".pdf", in the order of `names`. */
  function PdfEntries(t: Tree, dir: Path, names: seq<string>): seq<string>
  {
    if names == [] then []
    else
      (if IsFile(t, dir + [names[0]]) && IsPdfEntryName(names[0]) then [names[0]] else [])
      + PdfEntries(t, dir, names[1..])
  }

  /** The selection keeps exactly the regular ".pdf" files. */
  lemma {:induction false} PdfEntriesMembers(t: Tree, dir: Path, names: seq<string>)
    ensures forall n :: n in PdfEntries(t, dir, names) <==> n in names && IsFile(t, dir + [n]) && IsPdfEntryName(n)
  {
    if names != [] {
      PdfEntriesMembers(t, dir, names[1..]);
      assert forall n :: n in names <==> n == names[0] || n in names[1..];
    }
  }

  /** The parts `combine_documents` collects while visiting `names` in order. */
  function DocumentParts(t: Tree, dir: Path, names: seq<string>, open: Bytes -> Option<PdfDocument>)
    : Result<seq<string>>
  {
    if names == [] then Ok([])
    else
      var n := names[0];
      var rest := DocumentParts(t, dir, names[1..], open);
      if IsFile(t, dir + [n]) && IsPdfEntryName(n) then
        match PdfText(t, dir + [n], open)
        case Err(_) => Err(CombineError)
        case Ok(text) => if rest.Err? then rest else Ok([DocumentPart(n, text)] + rest.value)
      else rest
  }

  /** The parts for a list of PDF names, read in order; the first read that
      fails stops the collection. */
  function ReadParts(t: Tree, dir: Path, pdfs: seq<string>, open: Bytes -> Option<PdfDocument>)
    : Result<seq<string>>
  {
    if pdfs == [] then Ok([])
    else
      match PdfText(t, dir + [pdfs[0]], open)
      case Err(_) => Err(CombineError)
      case Ok(text) =>
        var rest := ReadParts(t, dir, pdfs[1..], open);
        if rest.Err? then rest else Ok([DocumentPart(pdfs[0], text)] + rest.value)
  }

  /** Visiting the listing reads exactly the selected PDFs, in listing order. */
  lemma {:induction false} DocumentPartsReadSelected(t: Tree, dir: Path, names: seq<string>,
                                                     open: Bytes -> Option<PdfDocument>)
    ensures DocumentParts(t, dir, names, open) == ReadParts(t, dir, PdfEntries(t, dir, names), open)
  {
    if names != [] {
      DocumentPartsReadSelected(t, dir, names[1..], open);
      var n := names[0];
      var pdfs := PdfEntries(t, dir, names);
      if IsFile(t, dir + [n]) && IsPdfEntryName(n) {
        assert pdfs == [n] + PdfEntries(t, dir, names[1..]);
        assert pdfs[0] == n && pdfs[1..] == PdfEntries(t, dir, names[1..]);
      } else {
        assert pdfs == PdfEntries(t, dir, names[1..]);
        assert DocumentParts(t, dir, names, open) == DocumentParts(t, dir, names[1..], open);
      }
    }
  }

  /** Reading succeeds exactly when every PDF can be read, and then there is
      one part per PDF, in order, naming the file and holding its text. */
  lemma {:induction false} ReadPartsSpec(t: Tree, dir: Path, pdfs: seq<string>,
                                         open: Bytes -> Option<PdfDocument>)
    ensures var parts := ReadParts(t, dir, pdfs, open);
      && (parts.Ok? <==> forall k :: 0 <= k < |pdfs| ==> PdfText(t, dir + [pdfs[k]], open).Ok?)
      && (parts.Ok? ==>
            && |parts.value| == |pdfs|
            && forall k :: 0 <= k < |pdfs| ==>
                 parts.value[k] == DocumentPart(pdfs[k], PdfText(t, dir + [pdfs[k]], open).value))
  {
    if pdfs != [] {
      ReadPartsSpec(t, dir, pdfs[1..], open);
      assert forall k :: 1 <= k < |pdfs| ==> pdfs[k] == pdfs[1..][k - 1];
    }
  }

  /** Combining succeeds exactly when every selected PDF can be read, and then
      there is one part per selected PDF, in order, naming the file and
      holding its text. */
  lemma DocumentPartsSpec(t: Tree, dir: Path, names: seq<string>, open: Bytes -> Option<PdfDocument>)
    ensures var parts, pdfs := DocumentParts(t, dir, names, open), PdfEntries(t, dir, names);
      && (parts.Ok? <==> forall k :: 0 <= k < |pdfs| ==> PdfText(t, dir + [pdfs[k]], open).Ok?)
      && (parts.Ok? ==>
            && |parts.value| == |pdfs|
            && forall k :: 0 <= k < |pdfs| ==>
                 parts.value[k] == DocumentPart(pdfs[k], PdfText(t, dir + [pdfs[k]], open).value))
  {
    DocumentPartsReadSelected(t, dir, names, open);
    ReadPartsSpec(t, dir, PdfEntries(t, dir, names), open);
  }

  /** Prefixing the parts already collected to the outcome of the rest. */
  function Prepend(done: seq<string>, rest: Result<seq<string>>): Result<seq<string>>
  {
    match rest
    case Err(m) => Err(m)
    case Ok(v) => Ok(done + v)
  }

  /** One step of the combining loop over `names[i]`, with `done` the parts
      collected before it. */
  lemma DocumentPartsStep(t: Tree, dir: Path, names: seq<string>, i: nat,
                          open: Bytes -> Option<PdfDocument>, done: seq<string>)
    requires i < |names|
    ensures var n, cur, rest := names[i], DocumentParts(t, dir, names[i..], open),
                                DocumentParts(t, dir, names[i + 1..], open);
      if IsFile(t, dir + [n]) && IsPdfEntryName(n) then
        match PdfText(t, dir + [n], open)
        case Err(_) => Prepend(done, cur) == Err(CombineError)
        case Ok(text) => Prepend(done, cur) == Prepend(done + [DocumentPart(n, text)], rest)
      else Prepend(done, cur) == Prepend(done, rest)
  {
    var n := names[i];
    assert names[i..][0] == n && names[i..][1..] == names[i + 1..];
    var rest := DocumentParts(t, dir, names[i + 1..], open);
    if IsFile(t, dir + [n]) && IsPdfEntryName(n) && PdfText(t, dir + [n], open).Ok? && rest.Ok? {
      var part := DocumentPart(n, PdfText(t, dir + [n], open).value);
      assert done + ([part] + rest.value) == (done + [part]) + rest.value;
    }
  }

  /** The outcome of `combine_documents` for session directory `dir`. */
  function CombinedText(t: Tree, dir: Path, open: Bytes -> Option<PdfDocument>): Result<string>
  {
    if !IsDir(t, dir) then Err(CombineError)
    else
      match DocumentParts(t, dir, SortedNames(ChildNames(t, dir)), open)
      case Err(m) => Err(m)
      case Ok(parts) => Ok(Join(parts, "\n\n"))
  }

  // ---------------------------------------------------------------------
  // clean_old_sessions

  /** The sub-directories of `base`, greatest name first. */
  function SessionFolders(t: Tree, base: Path): seq<string>
  {
    SortedDescending(SubdirNames(t, base))
  }

  /** `session_folders[:keep]`: the folders kept. */
  function KeptFolders(t: Tree, base: Path, keep: int): seq<string>
  {
    var f := SessionFolders(t, base);
    f[..SliceStart(keep, |f|)]
  }

  /** `session_folders[keep:]`: the folders deleted. */
  function DoomedFolders(t: Tree, base: Path, keep: int): seq<string>
  {
    var f := SessionFolders(t, base);
    f[SliceStart(keep, |f|)..]
  }

  /** For `keep >= 0` the kept folders are the `keep` greatest names (all of
      them when there are fewer), every deleted name is smaller than every
      kept one, and together they are the sub-directories of `base`. */
  lemma KeepLatestSplit(t: Tree, base: Path, keep: int)
    ensures var kept, doomed, n := KeptFolders(t, base, keep), DoomedFolders(t, base, keep),
                                   |SubdirNames(t, base)|;
      && (forall x :: x in SubdirNames(t, base) <==> x in kept || x in doomed)
      && (forall i, j :: 0 <= i < |kept| && 0 <= j < |doomed| ==> LexLess(doomed[j], kept[i]))
      && (0 <= keep ==> |kept| == (if keep <= n then keep else n))
      && (0 <= keep ==> |doomed| == (if keep <= n then n - keep else 0))
  {
    var f := SessionFolders(t, base);
    DescendingSplit(f, SliceStart(keep, |f|));
  }

  /** Cutting a strictly decreasing list in two: every element is in one
      part, and the tail lies entirely below the head. */
  lemma DescendingSplit(f: seq<string>, s: nat)
    requires s <= |f|
    requires forall i, j :: 0 <= i < j < |f| ==> LexLess(f[j], f[i])
    ensures forall x :: x in f <==> x in f[..s] || x in f[s..]
    ensures forall i, j :: 0 <= i < s && 0 <= j < |f| - s ==> LexLess(f[s..][j], f[..s][i])
  {
    assert f == f[..s] + f[s..];
    forall i, j | 0 <= i < s && 0 <= j < |f| - s ensures LexLess(f[s..][j], f[..s][i]) {
      assert f[s..][j] == f[s + j] && f[..s][i] == f[i];
    }
  }

  /** With the default argument the three greatest names are kept (all of
      them when there are fewer) and every other sub-directory is deleted. */
  lemma DefaultKeepsThree(t: Tree, base: Path)
    ensures var kept, doomed, n := KeptFolders(t, base, DefaultKeepLatest),
                                   DoomedFolders(t, base, DefaultKeepLatest), |SubdirNames(t, base)|;
      && |kept| == (if n < 3 then n else 3)
      && |doomed| == (if n < 3 then 0 else n - 3)
      && (forall x :: x in SubdirNames(t, base) <==> x in kept || x in doomed)
  {
    KeepLatestSplit(t, base, DefaultKeepLatest);
  }

  /** No session that is deleted was created after a session that is kept,
      when both carry generated identifiers from different seconds. */
  lemma NewestSessionsKept(t: Tree, base: Path, keep: int,
                           a: Timestamp, ua: nat, b: Timestamp, ub: nat)
    requires ValidTimestamp(a) && ValidTimestamp(b) && ua < UuidBound && ub < UuidBound && a != b
    requires GeneratedId(a, ua) in KeptFolders(t, base, keep)
    requires GeneratedId(b, ub) in DoomedFolders(t, base, keep)
    ensures Before(b, a)
  {
    KeepLatestSplit(t, base, keep);
    GeneratedIdOrderIsCreationOrder(b, ub, a, ua);
  }

  /** `q` is one of the folders `base/<name>` for a name in `names`, or an
      entry directly inside one. */
  predicate InFolders(q: Path, base: Path, names: seq<string>)
  {
    |base| < |q| <= |base| + 2 && q[..|base|] == base && q[|base|] in names
  }

  /** The loop of `clean_old_sessions` over `folders`: unlink each folder's
      regular files, then `rmdir` it; an `rmdir` that fails (the folder still
      holds a sub-directory) stops the loop. Returns whether every folder went,
      and the tree at the end. */
  function RemoveSessions(t: Tree, base: Path, folders: seq<string>): (bool, Tree)
  {
    if folders == [] then (true, t)
    else
      var d := base + [folders[0]];
      var t1 := WithoutFiles(t, d);
      if !(IsDir(t1, d) && ChildNames(t1, d) == {}) then (false, t1)
      else RemoveSessions(t1 - {d}, base, folders[1..])
  }

  /** Whatever happens, nothing outside the folders being deleted changes:
      files of `base`, kept sessions and their contents stay as they were. */
  lemma {:induction false} RemoveSessionsFrame(t: Tree, base: Path, folders: seq<string>)
    ensures var r := RemoveSessions(t, base, folders).1;
      forall q :: !InFolders(q, base, folders) ==>
        (q in r <==> q in t) && (q in t ==> r[q] == t[q])
  {
    if folders != [] {
      var d := base + [folders[0]];
      var t1 := WithoutFiles(t, d);
      forall q | !InFolders(q, base, folders)
        ensures (q in t1 <==> q in t) && (q in t ==> t1[q] == t[q])
        ensures q != d
      {
      }
      if IsDir(t1, d) && ChildNames(t1, d) == {} {
        RemoveSessionsFrame(t1 - {d}, base, folders[1..]);
        forall q | !InFolders(q, base, folders) ensures !InFolders(q, base, folders[1..]) {
        }
      }
    }
  }

  /** Deleting one empty-of-sub-directories session folder: the folder and its
      files go, nothing else changes, and the tree stays well formed. */
  lemma RemoveOneSession(t: Tree, base: Path, f: string)
    requires WellFormed(t) && IsDir(t, base + [f]) && SubdirNames(t, base + [f]) == {}
    ensures var d := base + [f]; var t2 := WithoutFiles(t, d) - {d};
      && IsDir(WithoutFiles(t, d), d) && ChildNames(WithoutFiles(t, d), d) == {}
      && WellFormed(t2)
      && (forall q :: q in t2 <==> q in t && !InFolders(q, base, [f]))
      && (forall q :: q in t2 ==> t2[q] == t[q])
  {
    var d := base + [f];
    var t1 := WithoutFiles(t, d);
    WithoutFilesKeepsDirectories(t, d);
    RemoveEmptyDirWellFormed(t1, d);
    forall q ensures InFolders(q, base, [f]) <==> q == d || IsChild(q, d) {
      InOneFolder(q, base, f);
    }
    forall q | q in t && IsChild(q, d) ensures t[q].File? {
      assert q == d + [q[|d|]];
      assert q[|d|] !in SubdirNames(t, d);
    }
  }

  /** The entries of one folder are the folder itself and its children. */
  lemma InOneFolder(q: Path, base: Path, f: string)
    ensures InFolders(q, base, [f]) <==> q == base + [f] || IsChild(q, base + [f])
  {
    var d := base + [f];
    if InFolders(q, base, [f]) {
      if |q| == |base| + 1 {
        assert q == q[..|base|] + [q[|base|]];
      } else {
        assert q[..|d|] == q[..|base|] + [q[|base|]];
      }
    }
    if IsChild(q, d) {
      assert q[..|base|] == d[..|base|];
    }
  }

  /** Deleting one folder leaves every other folder of `base`, and what it
      holds, as it was. */
  lemma OtherFolderUntouched(t: Tree, base: Path, f: string, g: string)
    requires f != g
    ensures var d := base + [f]; var t2 := WithoutFiles(t, d) - {d};
      && (IsDir(t2, base + [g]) <==> IsDir(t, base + [g]))
      && SubdirNames(t2, base + [g]) == SubdirNames(t, base + [g])
  {
    var d, e := base + [f], base + [g];
    var t2 := WithoutFiles(t, d) - {d};
    assert e[|base|] == g && d[|base|] == f;
    forall n ensures (e + [n] in t2 <==> e + [n] in t) && (e + [n] in t2 ==> t2[e + [n]] == t[e + [n]]) {
      assert (e + [n])[..|d|] == e;
    }
  }

  /** One step of the deletion loop on a folder that exists. */
  lemma RemoveSessionsStep(t: Tree, base: Path, folders: seq<string>)
    requires WellFormed(t) && folders != [] && IsDir(t, base + [folders[0]])
    ensures var d := base + [folders[0]];
      RemoveSessions(t, base, folders)
        == if SubdirNames(t, d) == {} then RemoveSessions(WithoutFiles(t, d) - {d}, base, folders[1..])
           else (false, WithoutFiles(t, d))
  {
    WithoutFilesKeepsDirectories(t, base + [folders[0]]);
  }

  /** Membership in the folders `f` followed by `rest`. */
  lemma InFoldersCons(q: Path, base: Path, f: string, rest: seq<string>)
    ensures InFolders(q, base, [f] + rest) <==> InFolders(q, base, [f]) || InFolders(q, base, rest)
  {
  }

  /** After the first folder is deleted, the remaining folders are still
      distinct directories with the same sub-directories as before. */
  lemma RemoveFirstSession(t: Tree, base: Path, folders: seq<string>)
    requires WellFormed(t)
    requires forall i, j :: 0 <= i < j < |folders| ==> folders[i] != folders[j]
    requires forall i :: 0 <= i < |folders| ==> IsDir(t, base + [folders[i]])
    requires folders != [] && SubdirNames(t, base + [folders[0]]) == {}
    ensures var d, rest := base + [folders[0]], folders[1..];
      var t2 := WithoutFiles(t, d) - {d};
      && WellFormed(t2)
      && (forall i, j :: 0 <= i < j < |rest| ==> rest[i] != rest[j])
      && (forall i :: 0 <= i < |rest| ==> IsDir(t2, base + [rest[i]]))
      && (forall i :: 0 <= i < |rest| ==> SubdirNames(t2, base + [rest[i]]) == SubdirNames(t, base + [rest[i]]))
  {
    var f, rest := folders[0], folders[1..];
    var d := base + [f];
    var t2 := WithoutFiles(t, d) - {d};
    WithoutFilesKeepsDirectories(t, d);
    RemoveEmptyDirWellFormed(WithoutFiles(t, d), d);
    forall i | 0 <= i < |rest|
      ensures IsDir(t2, base + [rest[i]])
      ensures SubdirNames(t2, base + [rest[i]]) == SubdirNames(t, base + [rest[i]])
    {
      assert rest[i] == folders[i + 1];
      OtherFolderUntouched(t, base, f, rest[i]);
    }
    forall i, j | 0 <= i < j < |rest| ensures rest[i] != rest[j] {
      assert rest[i] == folders[i + 1] && rest[j] == folders[j + 1];
    }
  }

  /** Deleting the folders succeeds exactly when none of them holds a
      sub-directory. */
  lemma {:induction false} RemoveSessionsSucceedsIff(t: Tree, base: Path, folders: seq<string>)
    requires WellFormed(t)
    requires forall i, j :: 0 <= i < j < |folders| ==> folders[i] != folders[j]
    requires forall i :: 0 <= i < |folders| ==> IsDir(t, base + [folders[i]])
    ensures RemoveSessions(t, base, folders).0
            <==> forall i :: 0 <= i < |folders| ==> SubdirNames(t, base + [folders[i]]) == {}
  {
    if folders != [] {
      var f, rest := folders[0], folders[1..];
      var d := base + [f];
      RemoveSessionsStep(t, base, folders);
      if SubdirNames(t, d) == {} {
        RemoveFirstSession(t, base, folders);
        RemoveSessionsSucceedsIff(WithoutFiles(t, d) - {d}, base, rest);
        assert (forall i :: 0 <= i < |folders| ==> SubdirNames(t, base + [folders[i]]) == {})
          <==> (forall i :: 0 <= i < |rest| ==> SubdirNames(t, base + [rest[i]]) == {}) by {
          forall i | 0 <= i < |rest| ensures rest[i] == folders[i + 1] { }
        }
      }
    }
  }

  /** When deleting the folders succeeds, exactly the folders and the files
      directly inside them are gone. */
  lemma {:induction false} RemoveSessionsRemoves(t: Tree, base: Path, folders: seq<string>)
    requires WellFormed(t)
    requires forall i, j :: 0 <= i < j < |folders| ==> folders[i] != folders[j]
    requires forall i :: 0 <= i < |folders| ==> IsDir(t, base + [folders[i]])
    requires RemoveSessions(t, base, folders).0
    ensures forall q :: q in RemoveSessions(t, base, folders).1 <==> q in t && !InFolders(q, base, folders)
  {
    if folders != [] {
      var f, rest := folders[0], folders[1..];
      var d := base + [f];
      RemoveSessionsStep(t, base, folders);
      var t2 := WithoutFiles(t, d) - {d};
      RemoveFirstSession(t, base, folders);
      RemoveOneSession(t, base, f);
      RemoveSessionsRemoves(t2, base, rest);
      assert folders == [f] + rest;
      forall q ensures InFolders(q, base, folders) <==> InFolders(q, base, [f]) || InFolders(q, base, rest) {
        InFoldersCons(q, base, f, rest);
      }
    }
  }

  /** Deleting the folders succeeds exactly when none of them holds a
      sub-directory, and then the folders and the files directly inside them
      are gone and every other entry remains. */
  lemma RemoveSessionsResult(t: Tree, base: Path, folders: seq<string>)
    requires WellFormed(t)
    requires forall i, j :: 0 <= i < j < |folders| ==> folders[i] != folders[j]
    requires forall i :: 0 <= i < |folders| ==> IsDir(t, base + [folders[i]])
    ensures var outcome := RemoveSessions(t, base, folders);
      && (outcome.0 <==> forall i :: 0 <= i < |folders| ==> SubdirNames(t, base + [folders[i]]) == {})
      && (outcome.0 ==> forall q :: q in outcome.1 <==> q in t && !InFolders(q, base, folders))
  {
    RemoveSessionsSucceedsIff(t, base, folders);
    if RemoveSessions(t, base, folders).0 {
      RemoveSessionsRemoves(t, base, folders);
    }
  }

  /** The folders `clean_old_sessions` deletes are distinct sub-directories
      of the base. */
  lemma DoomedAreDistinctDirs(t: Tree, base: Path, keep: int)
    ensures var doomed := DoomedFolders(t, base, keep);
      && (forall i, j :: 0 <= i < j < |doomed| ==> doomed[i] != doomed[j])
      && (forall i :: 0 <= i < |doomed| ==> IsDir(t, base + [doomed[i]]))
  {
    var f := SessionFolders(t, base);
    var s := SliceStart(keep, |f|);
    var doomed := f[s..];
    forall i, j | 0 <= i < j < |doomed| ensures doomed[i] != doomed[j] {
      assert LexLess(f[s + j], f[s + i]);
      LexLessIrreflexive(doomed[i]);
    }
    forall i | 0 <= i < |doomed| ensures IsDir(t, base + [doomed[i]]) {
      assert f[s + i] in f;
    }
  }

  /** Hence deleting them succeeds exactly when none of them holds a
      sub-directory, and then exactly those folders and the files directly
      inside them are gone. */
  lemma CleanOldSessionsResult(t: Tree, base: Path, keep: int)
    requires WellFormed(t)
    ensures var doomed := DoomedFolders(t, base, keep);
      var outcome := RemoveSessions(t, base, doomed);
      && (outcome.0 <==> forall i :: 0 <= i < |doomed| ==> SubdirNames(t, base + [doomed[i]]) == {})
      && (outcome.0 ==> forall q :: q in outcome.1 <==> q in t && !InFolders(q, base, doomed))
  {
    DoomedAreDistinctDirs(t, base, keep);
    RemoveSessionsResult(t, base, DoomedFolders(t, base, keep));
  }

  // ---------------------------------------------------------------------
  // The ingestor

  class DocumentIngestion {
    const fs: Disk
    const baseDir: Path
    const sessionId: string
    const sessionPath: Path

    ghost predicate Valid()
      reads this, fs
    {
      fs.Valid() && sessionPath == baseDir + Components(sessionId)
    }

    constructor Init(fs: Disk, baseDir: Path, sessionId: string)
      ensures this.fs == fs && this.baseDir == baseDir && this.sessionId == sessionId
      ensures sessionPath == baseDir + Components(sessionId)
    {
      this.fs := fs;
      this.baseDir := baseDir;
      this.sessionId := sessionId;
      this.sessionPath := baseDir + Components(sessionId);
    }

    /** `DocumentIngestion(base_dir, session_id)`: resolve the session
        identifier and create `base_dir / session_id` with its parents (an
        existing directory is fine; a regular file on the way is an error).
        The identifier is split into path components as `pathlib` does, so
        "a/b" nests and "." is the base itself. */
    static method Create(fs: Disk, baseDir: Path, sessionId: Option<string>, now: Timestamp, uuid: nat)
      returns (r: Result<DocumentIngestion>)
      requires fs.Valid() && ValidTimestamp(now) && uuid < UuidBound
      modifies fs
      ensures fs.Valid()
      ensures var id := ResolveSessionId(sessionId, now, uuid);
        var path := baseDir + Components(id);
        && (r.Ok? <==> CanMakeDirs(old(fs.nodes), path))
        && (r.Ok? ==> && fresh(r.value) && r.value.Valid() && r.value.fs == fs
                      && r.value.baseDir == baseDir && r.value.sessionId == id
                      && r.value.sessionPath == path
                      && fs.nodes == WithDirs(old(fs.nodes), path)
                      && IsDir(fs.nodes, path))
        && (r.Err? ==> fs.nodes == old(fs.nodes))
    {
      var id := ResolveSessionId(sessionId, now, uuid);
      var path := baseDir + Components(id);
      var ok := fs.MakeDirs(path);
      if !ok {
        return Err(SessionDirError);
      }
      assert path == [] || path[..|path|] == path;
      var ingestion := new DocumentIngestion.Init(fs, baseDir, id);
      return Ok(ingestion);
    }

    /** Unlinks every regular file directly inside `dir`, visiting the
        listing in whatever order the directory yields it. */
    method RemoveFiles(dir: Path)
      requires fs.Valid()
      modifies fs
      ensures fs.Valid()
      ensures fs.nodes == WithoutFiles(old(fs.nodes), dir)
    {
      ghost var t0 := fs.nodes;
      var names := ChildNames(fs.nodes, dir);
      var left := names;
      while left != {}
        invariant fs.Valid() && left <= names
        invariant fs.nodes == WithoutFilesAmong(t0, dir, names - left)
        decreases left
      {
        var n :| n in left;
        WithoutFilesAmongStep(t0, dir, names - left, n);
        assert (names - left) + {n} == names - (left - {n});
        if IsFile(fs.nodes, dir + [n]) {
          var unlinked := fs.Unlink(dir + [n]);
        }
        left := left - {n};
      }
      WithoutFilesAmongAll(t0, dir);
    }

    /** `delete_existing_files`: when the session directory exists, unlink the
        regular files directly inside it; sub-directories and the directory
        itself stay. */
    method DeleteExistingFiles()
      requires Valid()
      modifies fs
      ensures Valid()
      ensures fs.nodes == if IsDir(old(fs.nodes), sessionPath)
                          then WithoutFiles(old(fs.nodes), sessionPath) else old(fs.nodes)
    {
      if IsDir(fs.nodes, sessionPath) {
        RemoveFiles(sessionPath);
      }
    }

    /** `save_uploaded_file(reference_file, actual_file)`: both names must end
        in ".pdf" (ignoring case) before anything is written; then the
        reference file and the actual file are written, in that order. */
    method SaveUploadedFile(reference: Upload, actual: Upload) returns (r: Result<(Path, Path)>)
      requires Valid()
      modifies fs
      ensures Valid()
      ensures var refPath, actPath := sessionPath + [reference.name], sessionPath + [actual.name];
        var namesOk := IsPdfUploadName(reference.name) && IsPdfUploadName(actual.name);
        && (r.Ok? <==> namesOk && CanWrite(old(fs.nodes), refPath) && CanWrite(old(fs.nodes), actPath))
        && (r.Ok? ==> && r.value == (refPath, actPath)
                      && fs.nodes == old(fs.nodes)[refPath := File(reference.data)]
                                                  [actPath := File(actual.data)]
                      && fs.nodes[actPath] == File(actual.data))
        && (r.Err? ==> fs.nodes == if namesOk && CanWrite(old(fs.nodes), refPath)
                                   then old(fs.nodes)[refPath := File(reference.data)]
                                   else old(fs.nodes))
    {
      var refPath := sessionPath + [reference.name];
      var actPath := sessionPath + [actual.name];
      if !IsPdfUploadName(reference.name) || !IsPdfUploadName(actual.name) {
        return Err(SaveError);
      }
      ghost var t0 := fs.nodes;
      var ok := fs.WriteFile(refPath, reference.data);
      if !ok {
        return Err(SaveError);
      }
      assert Parent(refPath) == sessionPath == Parent(actPath);
      assert CanWrite(fs.nodes, actPath) == CanWrite(t0, actPath);
      ok := fs.WriteFile(actPath, actual.data);
      if !ok {
        return Err(SaveError);
      }
      return Ok((refPath, actPath));
    }

    /** `read_pdf(path)`: refuse encrypted documents, then collect a block per
        page that has text and join the blocks with newlines. */
    method ReadPdf(path: Path, open: Bytes -> Option<PdfDocument>) returns (r: Result<string>)
      ensures r == PdfText(fs.nodes, path, open)
    {
      if !IsFile(fs.nodes, path) {
        return Err(ReadError);
      }
      var doc := open(fs.nodes[path].data);
      if doc.None? || doc.value.encrypted {
        return Err(ReadError);
      }
      var pages := doc.value.pages;
      var allText: seq<string> := [];
      var i := 0;
      while i < |pages|
        invariant 0 <= i <= |pages|
        invariant allText == PageBlocks(pages, NonBlankPages(pages, i))
      {
        var text := pages[i];
        if !IsBlank(text) {
          allText := allText + [PageHeader(i) + text];
        }
        i := i + 1;
      }
      return Ok(Join(allText, "\n"));
    }

    /** `combine_documents`: visit the session directory in sorted name order
        and, for each regular file with a ".pdf" suffix, add
        "Document: <name>\n<text>"; join the parts with blank lines. */
    method CombineDocuments(open: Bytes -> Option<PdfDocument>) returns (r: Result<string>)
      ensures r == CombinedText(fs.nodes, sessionPath, open)
    {
      if !IsDir(fs.nodes, sessionPath) {
        return Err(CombineError);
      }
      ghost var t := fs.nodes;
      var names := SortedNames(ChildNames(fs.nodes, sessionPath));
      var docParts: seq<string> := [];
      var i := 0;
      assert names[0..] == names;
      match DocumentParts(t, sessionPath, names, open) {
        case Err(_) =>
        case Ok(v) => assert docParts + v == v;
      }
      while i < |names|
        invariant 0 <= i <= |names|
        invariant DocumentParts(t, sessionPath, names, open)
               == Prepend(docParts, DocumentParts(t, sessionPath, names[i..], open))
      {
        var name := names[i];
        DocumentPartsStep(t, sessionPath, names, i, open, docParts);
        if IsFile(fs.nodes, sessionPath + [name]) && IsPdfEntryName(name) {
          var content := ReadPdf(sessionPath + [name], open);
          if content.Err? {
            return Err(CombineError);
          }
          docParts := docParts + [DocumentPart(name, content.value)];
        }
        i := i + 1;
      }
      assert names[|names|..] == [] && docParts + [] == docParts;
      return Ok(Join(docParts, "\n\n"));
    }

    /** `clean_old_sessions(keep_latest)`: list the sub-directories of the base
        directory greatest name first, and delete those from position
        `keep_latest` on (Python slice semantics), each by unlinking its files
        and removing the then-empty folder. */
    method CleanOldSessions(keepLatest: int) returns (r: Outcome)
      requires Valid()
      modifies fs
      ensures Valid()
      ensures !IsDir(old(fs.nodes), baseDir) ==> r.Fail? && fs.nodes == old(fs.nodes)
      ensures IsDir(old(fs.nodes), baseDir) ==>
        var (ok, t) := RemoveSessions(old(fs.nodes), baseDir, DoomedFolders(old(fs.nodes), baseDir, keepLatest));
        (r.Pass? <==> ok) && fs.nodes == t
    {
      if !IsDir(fs.nodes, baseDir) {
        return Fail(CleanError);
      }
      var doomed := DoomedFolders(fs.nodes, baseDir, keepLatest);
      ghost var t0 := fs.nodes;
      var i := 0;
      while i < |doomed|
        invariant 0 <= i <= |doomed|
        invariant Valid()
        invariant RemoveSessions(t0, baseDir, doomed) == RemoveSessions(fs.nodes, baseDir, doomed[i..])
      {
        var folder := baseDir + [doomed[i]];
        assert doomed[i..][1..] == doomed[i + 1..];
        RemoveFiles(folder);
        var removed := fs.RemoveDir(folder);
        if !removed {
          return Fail(CleanError);
        }
        i := i + 1;
      }
      return Pass;
    }
  }
}

=== FILE: filesystem.dfy ===
/** The part of the file system the ingestors touch: a tree of regular files
    and directories, keyed by absolute path (a sequence of path components;
    the root is the empty path). Class `Disk` holds the tree and offers the
    `pathlib` operations the core calls, each with the condition under which
    the operating system refuses it. */
module FileSystem {
  import opened Text

  type Bytes = seq<bv8>

  type Path = seq<string>

  datatype Node = File(data: Bytes) | Dir

  type Tree = map<Path, Node>

  /** A file handed over by the web layer: its name and its bytes. */
  datatype Upload = Upload(name: string, data: Bytes)

  /** A component `pathlib` keeps when it splits a string: not empty, not
      ".", and free of the separator. */
  predicate IsComponent(c: string)
  {
    c != "" && c != "." && '/' !in c
  }

  function KeepComponent(c: string): (parts: Path)
    ensures forall k :: 0 <= k < |parts| ==> IsComponent(parts[k])
  {
    if IsComponent(c) then [c] else []
  }

  /** The components of `Path(text)`: split at '/', dropping empty and "."
      components. */
  function Components(text: string): (parts: Path)
    ensures forall k :: 0 <= k < |parts| ==> IsComponent(parts[k])
    decreases |text|
  {
    var i := IndexOf(text, '/');
    if i < 0 then KeepComponent(text)
    else KeepComponent(text[..i]) + Components(text[i + 1..])
  }

  /** Splitting a '/'-joined path gives back its components. */
  lemma {:induction false} ComponentsOfJoin(parts: Path)
    requires forall k :: 0 <= k < |parts| ==> IsComponent(parts[k])
    ensures Components(Join(parts, "/")) == parts
    decreases |parts|
  {
    if |parts| == 0 {
      assert IndexOf("", '/') == -1;
    } else if |parts| == 1 {
      assert Join(parts, "/") == parts[0];
      assert IndexOf(parts[0], '/') < 0;
    } else {
      var head, rest := parts[0], Join(parts[1..], "/");
      var text := head + "/" + rest;
      assert text == Join(parts, "/");
      assert forall j :: 0 <= j < |head| ==> text[j] == head[j];
      assert text[|head|] == '/';
      assert IndexOf(text, '/') == |head|;
      assert text[..|head|] == head && text[|head| + 1..] == rest;
      ComponentsOfJoin(parts[1..]);
      assert [head] + parts[1..] == parts;
    }
  }

  /** The first '/' of `a + "/" + b` is the first '/' of `a`, or else the
      separator just after `a`. */
  lemma {:induction false} FirstSeparator(a: string, b: string)
    ensures IndexOf(a + "/" + b, '/') == if IndexOf(a, '/') < 0 then |a| else IndexOf(a, '/')
    decreases |a|
  {
    var text := a + "/" + b;
    if |a| == 0 {
      assert text[0] == '/';
    } else if a[0] == '/' {
      assert text[0] == '/';
    } else {
      assert text[0] == a[0];
      assert text[1..] == a[1..] + "/" + b;
      FirstSeparator(a[1..], b);
    }
  }

  /** Splitting at a separator splits the components: the pieces on either
      side of a '/' contribute their own components, in order. */
  lemma {:induction false} ComponentsOfConcat(a: string, b: string)
    ensures Components(a + "/" + b) == Components(a) + Components(b)
    decreases |a|
  {
    var text := a + "/" + b;
    var i := IndexOf(a, '/');
    FirstSeparator(a, b);
    if i < 0 {
      assert text[..|a|] == a && text[|a| + 1..] == b;
    } else {
      assert text[..i] == a[..i];
      assert text[i + 1..] == a[i + 1..] + "/" + b;
      ComponentsOfConcat(a[i + 1..], b);
      var k := KeepComponent(a[..i]);
      assert k + (Components(a[i + 1..]) + Components(b)) == (k + Components(a[i + 1..])) + Components(b);
    }
  }

  /** The pieces `pathlib` drops: an empty text and the current directory "."
      have no components. */
  lemma ComponentsOfEmptyAndDot()
    ensures Components("") == [] && Components(".") == []
  {
    assert IndexOf("", '/') < 0 && IndexOf(".", '/') < 0;
  }

  /** A piece without components, such as "" or ".", adds none between two
      separators. */
  lemma ComponentsSkipPiece(a: string, piece: string, b: string)
    requires Components(piece) == []
    ensures Components(a + "/" + piece + "/" + b) == Components(a) + Components(b)
  {
    var rest := piece + "/" + b;
    var whole := a + "/" + piece + "/" + b;
    assert whole == a + "/" + rest;
    ComponentsOfConcat(piece, b);
    ComponentsOfConcat(a, rest);
  }

  function Parent(p: Path): Path
    requires p != []
  {
    p[..|p| - 1]
  }

  /** `p` is an entry directly inside directory path `dir`. */
  predicate IsChild(p: Path, dir: Path)
  {
    |p| == |dir| + 1 && p[..|dir|] == dir
  }

  predicate IsDir(t: Tree, p: Path)
  {
    p in t && t[p].Dir?
  }

  predicate IsFile(t: Tree, p: Path)
  {
    p in t && t[p].File?
  }

  /** The root is a directory and every other entry lives in a directory. */
  ghost predicate WellFormed(t: Tree)
  {
    && IsDir(t, [])
    && forall p :: p in t && p != [] ==> IsDir(t, Parent(p))
  }

  /** The names listed by `dir.iterdir()`. */
  function ChildNames(t: Tree, dir: Path): (names: set<string>)
    ensures forall n :: n in names <==> dir + [n] in t
  {
    var names := set p | p in t && IsChild(p, dir) :: p[|dir|];
    assert forall n :: dir + [n] in t ==> n in names by {
      forall n | dir + [n] in t ensures n in names {
        var p := dir + [n];
        assert IsChild(p, dir) && p[|dir|] == n;
      }
    }
    assert forall n :: n in names ==> dir + [n] in t by {
      forall n | n in names ensures dir + [n] in t {
        var p :| p in t && IsChild(p, dir) && p[|dir|] == n;
        assert p == p[..|dir|] + [p[|dir|]];
      }
    }
    names
  }

  /** The names of the sub-directories of `dir` (`d.is_dir()` in a listing). */
  function SubdirNames(t: Tree, dir: Path): (names: set<string>)
    ensures forall n :: n in names <==> IsDir(t, dir + [n])
  {
    set n | n in ChildNames(t, dir) && IsDir(t, dir + [n])
  }

  /** In a well-formed tree nothing is listed inside a path that is not a directory. */
  lemma NothingInsideNonDirectory(t: Tree, dir: Path)
    requires WellFormed(t) && !IsDir(t, dir)
    ensures ChildNames(t, dir) == {}
  {
  }

  /** `open(p, "wb")` succeeds: the parent is a directory and `p` is not one. */
  predicate CanWrite(t: Tree, p: Path)
  {
    p != [] && IsDir(t, Parent(p)) && !IsDir(t, p)
  }

  lemma WriteWellFormed(t: Tree, p: Path, data: Bytes)
    requires WellFormed(t) && CanWrite(t, p)
    ensures WellFormed(t[p := File(data)])
  {
    var r := t[p := File(data)];
    forall q | q in r && q != [] ensures IsDir(r, Parent(q)) {
      assert q != p ==> IsDir(t, Parent(q));
    }
  }

  /** `p.mkdir(parents=True, exist_ok=True)` succeeds: no prefix of `p` is a
      regular file. */
  predicate CanMakeDirs(t: Tree, p: Path)
  {
    forall k :: 0 <= k <= |p| ==> !IsFile(t, p[..k])
  }

  /** `q` is a non-empty prefix of `p`. */
  predicate IsPrefixOf(q: Path, p: Path)
  {
    0 < |q| <= |p| && q == p[..|q|]
  }

  /** The tree after `p.mkdir(parents=True, exist_ok=True)`: every non-empty
      prefix of `p` is a directory and nothing else changes. */
  function WithDirs(t: Tree, p: Path): (r: Tree)
    ensures forall k :: 0 < k <= |p| ==> p[..k] in r && r[p[..k]] == Dir
    ensures forall q :: q in r <==> q in t || IsPrefixOf(q, p)
    ensures forall q :: q in t && !IsPrefixOf(q, p) ==> r[q] == t[q]
    decreases |p|
  {
    if p == [] then t
    else
      var r := WithDirs(t, Parent(p))[p := Dir];
      assert forall k :: 0 < k < |p| ==> Parent(p)[..k] == p[..k];
      assert p[..|p|] == p;
      assert forall q :: IsPrefixOf(q, p) <==> q == p || IsPrefixOf(q, Parent(p)) by {
        forall q ensures IsPrefixOf(q, p) <==> q == p || IsPrefixOf(q, Parent(p)) {
          if IsPrefixOf(q, Parent(p)) {
            assert Parent(p)[..|q|] == p[..|q|];
          }
        }
      }
      r
  }

  lemma WithDirsWellFormed(t: Tree, p: Path)
    requires WellFormed(t) && CanMakeDirs(t, p)
    ensures WellFormed(WithDirs(t, p))
  {
    var r := WithDirs(t, p);
    forall q | q in r && q != [] ensures IsDir(r, Parent(q)) {
      if IsPrefixOf(q, p) {
        if |q| > 1 {
          assert Parent(q) == p[..|q| - 1];
        } else {
          assert Parent(q) == [];
          assert !IsPrefixOf([], p);
        }
      } else {
        assert q in t;
        var pq := Parent(q);
        assert IsDir(t, pq);
        if IsPrefixOf(pq, p) {
          assert r[pq] == Dir;
        } else {
          assert r[pq] == t[pq];
        }
      }
    }
    assert !IsPrefixOf([], p);
  }

  /** The tree after unlinking the regular files listed in `dir` whose names
      are in `names`. */
  function WithoutFilesAmong(t: Tree, dir: Path, names: set<string>): Tree
  {
    map p | p in t && !(IsChild(p, dir) && p[|dir|] in names && t[p].File?) :: t[p]
  }

  /** The tree after unlinking every regular file directly inside `dir`. */
  function WithoutFiles(t: Tree, dir: Path): Tree
  {
    map p | p in t && !(IsChild(p, dir) && t[p].File?) :: t[p]
  }

  lemma WithoutFilesAmongAll(t: Tree, dir: Path)
    ensures WithoutFilesAmong(t, dir, ChildNames(t, dir)) == WithoutFiles(t, dir)
  {
    forall p | p in t && IsChild(p, dir) ensures p[|dir|] in ChildNames(t, dir) {
      assert p == dir + [p[|dir|]];
    }
  }

  /** One more name handled by the unlinking loop: its entry goes exactly
      when it is a regular file. */
  lemma WithoutFilesAmongStep(t: Tree, dir: Path, names: set<string>, n: string)
    requires n !in names
    ensures WithoutFilesAmong(t, dir, names + {n})
         == if IsFile(t, dir + [n]) then WithoutFilesAmong(t, dir, names) - {dir + [n]}
            else WithoutFilesAmong(t, dir, names)
  {
    var p := dir + [n];
    assert IsChild(p, dir) && p[|dir|] == n;
    forall q | IsChild(q, dir) && q[|dir|] == n ensures q == p {
      assert q == q[..|dir|] + [q[|dir|]];
    }
  }

  /** Unlinking the files of `dir` keeps the tree well formed, keeps every
      directory (`dir` itself and its sub-directories among them), and leaves
      nothing but sub-directories listed in `dir`. */
  lemma {:induction false} WithoutFilesKeepsDirectories(t: Tree, dir: Path)
    requires WellFormed(t)
    ensures WellFormed(WithoutFiles(t, dir))
    ensures forall q :: IsDir(t, q) ==> IsDir(WithoutFiles(t, dir), q)
    ensures forall q :: q in WithoutFiles(t, dir) ==> q in t && WithoutFiles(t, dir)[q] == t[q]
    ensures ChildNames(WithoutFiles(t, dir), dir) == SubdirNames(t, dir)
  {
    var r := WithoutFiles(t, dir);
    forall q | q in r && q != [] ensures IsDir(r, Parent(q)) {
      assert IsDir(t, Parent(q));
    }
  }

  lemma UnlinkWellFormed(t: Tree, p: Path)
    requires WellFormed(t) && IsFile(t, p)
    ensures WellFormed(t - {p})
  {
    var r := t - {p};
    forall q | q in r && q != [] ensures IsDir(r, Parent(q)) {
      assert IsDir(t, Parent(q));
    }
  }

  lemma RemoveEmptyDirWellFormed(t: Tree, p: Path)
    requires WellFormed(t) && p != [] && IsDir(t, p) && ChildNames(t, p) == {}
    ensures WellFormed(t - {p})
  {
    var r := t - {p};
    forall q | q in r && q != [] ensures IsDir(r, Parent(q)) {
      assert IsDir(t, Parent(q));
      assert q == Parent(q) + [q[|q| - 1]];
    }
  }

  class Disk {
    var nodes: Tree

    ghost predicate Valid()
      reads this
    {
      WellFormed(nodes)
    }

    /** `p.mkdir(parents=True, exist_ok=True)`. */
    method MakeDirs(p: Path) returns (ok: bool)
      requires Valid()
      modifies this
      ensures Valid()
      ensures ok == CanMakeDirs(old(nodes), p)
      ensures nodes == if ok then WithDirs(old(nodes), p) else old(nodes)
    {
      ok := CanMakeDirs(nodes, p);
      if ok {
        WithDirsWellFormed(nodes, p);
        nodes := WithDirs(nodes, p);
      }
    }

    /** `with open(p, "wb") as f: f.write(data)`. */
    method WriteFile(p: Path, data: Bytes) returns (ok: bool)
      requires Valid()
      modifies this
      ensures Valid()
      ensures ok == CanWrite(old(nodes), p)
      ensures nodes == if ok then old(nodes)[p := File(data)] else old(nodes)
    {
      ok := CanWrite(nodes, p);
      if ok {
        WriteWellFormed(nodes, p, data);
        nodes := nodes[p := File(data)];
      }
    }

    /** `p.unlink()`. */
    method Unlink(p: Path) returns (ok: bool)
      requires Valid()
      modifies this
      ensures Valid()
      ensures ok == IsFile(old(nodes), p)
      ensures nodes == if ok then old(nodes) - {p} else old(nodes)
    {
      ok := IsFile(nodes, p);
      if ok {
        UnlinkWellFormed(nodes, p);
        nodes := nodes - {p};
      }
    }

    /** `p.rmdir()`: only an empty directory other than the root goes. */
    method RemoveDir(p: Path) returns (ok: bool)
      requires Valid()
      modifies this
      ensures Valid()
      ensures ok == (p != [] && IsDir(old(nodes), p) && ChildNames(old(nodes), p) == {})
      ensures nodes == if ok then old(nodes) - {p} else old(nodes)
    {
      ok := p != [] && IsDir(nodes, p) && ChildNames(nodes, p) == {};
      if ok {
        RemoveEmptyDirWellFormed(nodes, p);
        nodes := nodes - {p};
      }
    }
  }
}

=== FILE: model_loader.dfy ===
/** The model loader: checks that the three provider API keys are set in the
    environment, holds the parsed configuration, and picks the chat model
    and the embedding model the configuration describes. The clients
    themselves are foreign; the model returns the arguments each one would
    be built with. */
module ModelLoader {
  import opened Wrappers

  /** The process environment after `.env` has been loaded. */
  type Env = map<string, string>

  /** A value of the YAML configuration (mapping keys are strings here). */
  datatype Yaml =
    | YNull
    | YBool(b: bool)
    | YInt(i: int)
    | YReal(r: real)
    | YStr(s: string)
    | YList(items: seq<Yaml>)
    | YMap(fields: map<string, Yaml>)

  /** The environment variables every loader needs. */
  const RequiredVars: seq<string> := ["GOOGLE_API_KEY", "OPENAI_API_KEY", "GROQ_API_KEY"]

  const ProviderVar: string := "LLM_PROVIDER"
  const DefaultProviderKey: string := "groq"
  const DefaultTemperature: Yaml := YReal(0.2)
  const DefaultMaxTokens: Yaml := YInt(2048)

  const MissingEnvError: string := "Missing required environment variables"
  const ConfigError: string := "configuration is not a mapping"
  const LlmBlockError: string := "configuration has no 'llm' mapping"
  const ProviderConfigError: string := "provider configuration is not a mapping"
  const UnsupportedProviderError: string := "Unsupported LLM provider"
  const EmbeddingConfigError: string := "configuration has no 'embedding_model.model_name'"

  /** The chat clients the loader can build, with the arguments it passes. */
  datatype LlmClient =
    | ChatGoogle(model: Yaml, temperature: Yaml, maxOutputTokens: Yaml)
    | ChatGroq(model: Yaml, apiKey: string, temperature: Yaml)
    | ChatOpenAi(model: Yaml, apiKey: string, temperature: Yaml, maxTokens: Yaml)

  datatype EmbeddingClient = GoogleEmbeddings(model: Yaml)

  /** `os.getenv(name)`. */
  function GetEnv(env: Env, name: string): Option<string>
  {
    if name in env then Some(env[name]) else None
  }

  /** A value Python treats as false: absent or the empty string. */
  predicate Unset(v: Option<string>)
  {
    v == None || v == Some("")
  }

  /** Every required variable is set to a non-empty value. */
  predicate AllKeysPresent(env: Env)
  {
    forall v :: v in RequiredVars ==> v in env && env[v] != ""
  }

  /** `{key: os.getenv(key) for key in required_vars}`. */
  function ApiKeys(env: Env): (keys: map<string, Option<string>>)
    ensures keys.Keys == set v | v in RequiredVars
    ensures forall v :: v in keys ==> keys[v] == GetEnv(env, v)
  {
    map v | v in RequiredVars :: GetEnv(env, v)
  }

  /** `a` is `b` with some elements left out, the rest in the same order. */
  predicate IsSubsequence(a: seq<string>, b: seq<string>)
    decreases |b|
  {
    a == [] || (b != [] && if a[0] == b[0] then IsSubsequence(a[1..], b[1..]) else IsSubsequence(a, b[1..]))
  }

  /** The variables among `vars` whose value in `keys` is unset, in order. */
  function MissingKeys(keys: map<string, Option<string>>, vars: seq<string>): (m: seq<string>)
    requires forall v :: v in vars ==> v in keys
    ensures forall v :: v in m <==> v in vars && Unset(keys[v])
    ensures IsSubsequence(m, vars)
  {
    if vars == [] then []
    else
      var rest := MissingKeys(keys, vars[1..]);
      if Unset(keys[vars[0]]) then
        assert ([vars[0]] + rest)[1..] == rest;
        [vars[0]] + rest
      else
        assert rest != [] ==> rest[0] in rest;
        rest
  }

  /** Validation fails exactly when some required variable is absent or empty. */
  lemma MissingKeysEmptyIff(env: Env)
    ensures MissingKeys(ApiKeys(env), RequiredVars) == [] <==> AllKeysPresent(env)
  {
    var m := MissingKeys(ApiKeys(env), RequiredVars);
    if m != [] {
      assert m[0] in m;
    }
  }

  /** `mapping.get(key)`. */
  function Get(fields: map<string, Yaml>, key: string): Option<Yaml>
  {
    if key in fields then Some(fields[key]) else None
  }

  /** `mapping.get(key, default)`: the default only when the key is absent. */
  function GetOr(fields: map<string, Yaml>, key: string, default: Yaml): (v: Yaml)
    ensures key in fields ==> v == fields[key]
    ensures key !in fields ==> v == default
  {
    if key in fields then fields[key] else default
  }

  /** `os.getenv("LLM_PROVIDER", "groq")`: an empty value is kept. */
  function ProviderKey(env: Env): (key: string)
    ensures ProviderVar in env ==> key == env[ProviderVar]
    ensures ProviderVar !in env ==> key == DefaultProviderKey
  {
    if ProviderVar in env then env[ProviderVar] else DefaultProviderKey
  }

  /** The client built from one provider block; which client depends only on
      the block's "provider" field. */
  function ClientFor(block: map<string, Yaml>, groqKey: string, openAiKey: string): (r: Result<LlmClient>)
    ensures r.Ok? <==> Get(block, "provider") in {Some(YStr("google")), Some(YStr("groq")), Some(YStr("openai"))}
    ensures r.Ok? ==> (r.value.ChatGoogle? <==> Get(block, "provider") == Some(YStr("google")))
    ensures r.Ok? ==> (r.value.ChatGroq? <==> Get(block, "provider") == Some(YStr("groq")))
    ensures r.Ok? ==> r.value.model == GetOr(block, "model_name", YNull)
    ensures r.Ok? ==> r.value.temperature == GetOr(block, "temperature", DefaultTemperature)
    ensures r.Ok? && r.value.ChatGoogle? ==> r.value.maxOutputTokens == GetOr(block, "max_output_tokens", DefaultMaxTokens)
    ensures r.Ok? && r.value.ChatOpenAi? ==> r.value.maxTokens == GetOr(block, "max_output_tokens", DefaultMaxTokens)
    ensures r.Ok? && r.value.ChatGroq? ==> r.value.apiKey == groqKey
    ensures r.Ok? && r.value.ChatOpenAi? ==> r.value.apiKey == openAiKey
    ensures r.Err? ==> r.msg == UnsupportedProviderError
  {
    var provider := Get(block, "provider");
    var model := GetOr(block, "model_name", YNull);
    var temperature := GetOr(block, "temperature", DefaultTemperature);
    var maxTokens := GetOr(block, "max_output_tokens", DefaultMaxTokens);
    if provider == Some(YStr("google")) then Ok(ChatGoogle(model, temperature, maxTokens))
    else if provider == Some(YStr("groq")) then Ok(ChatGroq(model, groqKey, temperature))
    else if provider == Some(YStr("openai")) then Ok(ChatOpenAi(model, openAiKey, temperature, maxTokens))
    else Err(UnsupportedProviderError)
  }

  /** `ValueError(f"Provider '{provider_key}' not found in config.")`. */
  function ProviderNotFound(key: string): string
  {
    "Provider '" + key + "' not found in config."
  }

  /** The outcome of `load_llm` for a configuration, the API keys read at
      start-up and the provider key chosen. */
  function LlmFromConfig(config: map<string, Yaml>, groqKey: string, openAiKey: string, key: string)
    : (r: Result<LlmClient>)
    ensures r.Ok? ==> "llm" in config && config["llm"].YMap? && key in config["llm"].fields
                      && config["llm"].fields[key].YMap?
                      && r == ClientFor(config["llm"].fields[key].fields, groqKey, openAiKey)
    ensures "llm" in config && config["llm"].YMap? && key !in config["llm"].fields
            ==> r == Err(ProviderNotFound(key))
  {
    if "llm" !in config || !config["llm"].YMap? then Err(LlmBlockError)
    else
      var llm := config["llm"].fields;
      if key !in llm then Err(ProviderNotFound(key))
      else if !llm[key].YMap? then Err(ProviderConfigError)
      else ClientFor(llm[key].fields, groqKey, openAiKey)
  }

  /** The provider key only selects a block: two keys naming equal blocks
      give the same client. */
  lemma KeySelectsBlockOnly(config: map<string, Yaml>, groqKey: string, openAiKey: string, k1: string, k2: string)
    requires "llm" in config && config["llm"].YMap?
    requires k1 in config["llm"].fields && k2 in config["llm"].fields
    requires config["llm"].fields[k1] == config["llm"].fields[k2]
    ensures LlmFromConfig(config, groqKey, openAiKey, k1) == LlmFromConfig(config, groqKey, openAiKey, k2)
  {
  }

  /** An explicit `null` temperature is passed on; 0.2 is used only when the
      key is absent. */
  lemma ExplicitNullTemperatureKept(block: map<string, Yaml>, groqKey: string, openAiKey: string)
    requires "temperature" in block && block["temperature"] == YNull
    requires Get(block, "provider") == Some(YStr("groq"))
    ensures ClientFor(block, groqKey, openAiKey) == Ok(ChatGroq(GetOr(block, "model_name", YNull), groqKey, YNull))
  {
  }

  class ModelLoader {
    var apiKeys: map<string, Option<string>>
    var config: map<string, Yaml>

    /** Every required key was read and is non-empty: what a loader that
        finished its constructor holds. */
    ghost predicate Valid()
      reads this
    {
      forall v :: v in RequiredVars ==> v in apiKeys && apiKeys[v].Some? && apiKeys[v].value != ""
    }

    constructor Empty()
      ensures apiKeys == map[] && config == map[]
    {
      apiKeys := map[];
      config := map[];
    }

    /** `_validate_env`: record every required variable's value, then fail
        when any of them is absent or empty. */
    method ValidateEnv(env: Env) returns (r: Outcome)
      modifies this
      ensures apiKeys == ApiKeys(env) && config == old(config)
      ensures r.Pass? <==> AllKeysPresent(env)
      ensures r.Pass? ==> Valid()
      ensures r.Fail? ==> r.msg == MissingEnvError
    {
      apiKeys := ApiKeys(env);
      var missing := MissingKeys(apiKeys, RequiredVars);
      MissingKeysEmptyIff(env);
      if missing != [] {
        return Fail(MissingEnvError);
      }
      return Pass;
    }

    /** `ModelLoader()`: validate the environment, then take the loaded
        configuration, whose keys are listed at once (so it must be a mapping). */
    static method Create(env: Env, config: Yaml) returns (r: Result<ModelLoader>)
      ensures r.Ok? <==> AllKeysPresent(env) && config.YMap?
      ensures r.Ok? ==> && fresh(r.value) && r.value.Valid()
                        && r.value.apiKeys == ApiKeys(env) && r.value.config == config.fields
      ensures r.Err? && !AllKeysPresent(env) ==> r.msg == MissingEnvError
    {
      var loader := new ModelLoader.Empty();
      var valid := loader.ValidateEnv(env);
      if valid.Fail? {
        return Err(valid.msg);
      }
      if !config.YMap? {
        return Err(ConfigError);
      }
      loader.config := config.fields;
      return Ok(loader);
    }

    /** `load_embeddings`: the client for
        `config["embedding_model"]["model_name"]`; a missing level raises. */
    function LoadEmbeddings(): (r: Result<EmbeddingClient>)
      reads this
      ensures r.Ok? <==> "embedding_model" in config && config["embedding_model"].YMap?
                         && "model_name" in config["embedding_model"].fields
      ensures r.Ok? ==> r.value.model == config["embedding_model"].fields["model_name"]
      ensures r.Err? ==> r.msg == EmbeddingConfigError
    {
      if "embedding_model" in config && config["embedding_model"].YMap?
         && "model_name" in config["embedding_model"].fields
      then Ok(GoogleEmbeddings(config["embedding_model"].fields["model_name"]))
      else Err(EmbeddingConfigError)
    }

    /** `load_llm`, with the environment as it is when it is called. */
    function LoadLlm(env: Env): (r: Result<LlmClient>)
      requires Valid()
      reads this
      ensures r.Ok? ==> "llm" in config && config["llm"].YMap? && ProviderKey(env) in config["llm"].fields
      ensures r.Ok? && !r.value.ChatGoogle? ==> r.value.apiKey != ""
      ensures r.Ok? && r.value.ChatGroq? ==> apiKeys["GROQ_API_KEY"] == Some(r.value.apiKey)
      ensures r.Ok? && r.value.ChatOpenAi? ==> apiKeys["OPENAI_API_KEY"] == Some(r.value.apiKey)
    {
      LlmFromConfig(config, apiKeys["GROQ_API_KEY"].value, apiKeys["OPENAI_API_KEY"].value, ProviderKey(env))
    }
  }
}

=== FILE: multi_document_chat.dfy ===
/** The multi-document chat ingestor (`DocumentIngestor`): per session it
    keeps uploaded files under a temporary directory and an index directory,
    loads the supported files (PDF, Word, plain text) into documents, and
    describes the similarity retriever built over them. Loaders, the text
    splitter, the embedding model and the vector index are foreign; the model
    takes the loader as a parameter and returns the retriever's settings. */
module MultiDocumentChat {
  import opened Wrappers
  import opened Text
  import opened FileSystem
  import opened Session
  import ML = ModelLoader

  /** A loaded document: its text and its metadata. */
  datatype Document = Document(pageContent: string, metadata: map<string, string>)

  /** The extensions the ingestor accepts (compared after lower-casing). */
  const SupportedExtensions: set<string> := {".pdf", ".docx", ".txt"}

  datatype LoaderKind = PyPdf | Docx2txt | PlainText

  /** A loader run on a saved file: the kind chosen, the file's path and its
      bytes; None when the loader raises. */
  type Loader = (LoaderKind, Path, Bytes) -> Option<seq<Document>>

  /** The foreign part of building the retriever: whether splitting the
      documents into chunks, embedding the chunks with the given client
      (`FAISS.from_documents`) and saving the index under the given directory
      (`save_local`) all succeed. FAISS refuses an empty list of chunks, so a
      faithful builder is false on `[]`. */
  type IndexBuilder = (seq<Document>, ML.EmbeddingClient, Path) -> bool

  const ChunkSize: nat := 1000
  const ChunkOverlap: nat := 300
  const SearchType: string := "similarity"
  const TopK: nat := 5

  const InitError: string := "Initialization error in DocumentIngestor"
  const IngestError: string := "Error during document ingestion"
  const RetrieverError: string := "Error during retriever creation"
  const NoDocumentsError: string := "No valid documents loaded"
  const WriteError: string := "file could not be written"
  const LoadError: string := "document could not be loaded"
  const MkdirError: string := "'str' object has no attribute 'mkdir'"

  /** What `vectorstore.as_retriever(...)` stands for: the documents indexed,
      how they were split, the embedding model, where the index is saved and
      how it is searched. */
  datatype Retriever = Retriever(
    documents: seq<Document>,
    chunkSize: nat,
    chunkOverlap: nat,
    embeddings: ML.EmbeddingClient,
    indexDir: Path,
    searchType: string,
    k: nat)

  /** The loader class picked for a supported extension. */
  function LoaderFor(ext: string): (kind: LoaderKind)
    requires ext in SupportedExtensions
    ensures kind == PyPdf <==> ext == ".pdf"
    ensures kind == Docx2txt <==> ext == ".docx"
    ensures kind == PlainText <==> ext == ".txt"
  {
    if ext == ".pdf" then PyPdf else if ext == ".docx" then Docx2txt else PlainText
  }

  /** The uploads with a supported extension, in order. */
  function Supported(uploads: seq<Upload>): (r: seq<Upload>)
    ensures forall u :: u in r <==> u in uploads && Extension(u.name) in SupportedExtensions
    ensures |r| <= |uploads|
  {
    if uploads == [] then []
    else
      (if Extension(uploads[0].name) in SupportedExtensions then [uploads[0]] else [])
      + Supported(uploads[1..])
  }

  // ---------------------------------------------------------------------
  // The ingestion loop

  /** What one upload does to the loop of `ingest_files`. */
  datatype Step =
    | Skip                                   // unsupported extension: `continue`
    | Stop(reason: string, after: Tree)      // the loop raises
    | Next(after: Tree, docs: seq<Document>) // saved and loaded

  /** One pass of the loop body for upload `u`, from tree `t` with `docs`
      collected so far: skip an unsupported upload; save a supported one in
      `dir` and load it; stop when the write or the loader fails, or when
      nothing has been loaded yet. */
  function IngestOne(t: Tree, dir: Path, u: Upload, load: Loader, docs: seq<Document>): (step: Step)
    ensures step.Skip? <==> Extension(u.name) !in SupportedExtensions
    ensures step.Next? ==>
      && Extension(u.name) in SupportedExtensions && CanWrite(t, dir + [u.name])
      && step.after == t[dir + [u.name] := File(u.data)]
      && load(LoaderFor(Extension(u.name)), dir + [u.name], u.data).Some?
      && step.docs == docs + load(LoaderFor(Extension(u.name)), dir + [u.name], u.data).value
      && step.docs != []
  {
    var ext := Extension(u.name);
    if ext !in SupportedExtensions then Skip
    else
      var p := dir + [u.name];
      if !CanWrite(t, p) then Stop(WriteError, t)
      else
        var t1 := t[p := File(u.data)];
        match load(LoaderFor(ext), p, u.data)
        case None => Stop(LoadError, t1)
        case Some(loaded) =>
          if docs + loaded == [] then Stop(NoDocumentsError, t1) else Next(t1, docs + loaded)
  }

  /** The loop of `ingest_files` over `uploads`: the documents collected (or
      the reason it stopped) and the tree at the end. */
  function Ingest(t: Tree, dir: Path, uploads: seq<Upload>, load: Loader, docs: seq<Document>)
    : (Result<seq<Document>>, Tree)
    decreases |uploads|
  {
    if uploads == [] then (Ok(docs), t)
    else
      match IngestOne(t, dir, uploads[0], load, docs)
      case Skip => Ingest(t, dir, uploads[1..], load, docs)
      case Stop(reason, t1) => (Err(reason), t1)
      case Next(t1, docs1) => Ingest(t1, dir, uploads[1..], load, docs1)
  }

  /** Unsupported uploads play no part: ingesting all uploads is ingesting
      the supported ones. */
  lemma {:induction false} IngestSkipsUnsupported(t: Tree, dir: Path, uploads: seq<Upload>,
                                                  load: Loader, docs: seq<Document>)
    ensures Ingest(t, dir, uploads, load, docs) == Ingest(t, dir, Supported(uploads), load, docs)
    decreases |uploads|
  {
    if uploads != [] {
      var u := uploads[0];
      var s := Supported(uploads);
      match IngestOne(t, dir, u, load, docs)
      case Skip =>
        assert s == Supported(uploads[1..]);
        IngestSkipsUnsupported(t, dir, uploads[1..], load, docs);
      case Stop(_, _) =>
        assert s[0] == u;
      case Next(t1, docs1) =>
        assert s[0] == u && s[1..] == Supported(uploads[1..]);
        IngestSkipsUnsupported(t1, dir, uploads[1..], load, docs1);
    }
  }

  /** With no supported upload nothing is written and the documents are
      those collected before. */
  lemma NothingSupported(t: Tree, dir: Path, uploads: seq<Upload>, load: Loader, docs: seq<Document>)
    requires forall u :: u in uploads ==> Extension(u.name) !in SupportedExtensions
    ensures Ingest(t, dir, uploads, load, docs) == (Ok(docs), t)
  {
    IngestSkipsUnsupported(t, dir, uploads, load, docs);
    if Supported(uploads) != [] {
      assert Supported(uploads)[0] in Supported(uploads);
    }
  }

  /** The documents the loaders return for the supported uploads of `ups`,
      concatenated in order; None if one of those loaders fails. */
  function LoadAll(dir: Path, ups: seq<Upload>, load: Loader): Option<seq<Document>>
    decreases |ups|
  {
    if ups == [] then Some([])
    else
      var u, rest := ups[0], LoadAll(dir, ups[1..], load);
      var ext := Extension(u.name);
      if ext !in SupportedExtensions then rest
      else
        match load(LoaderFor(ext), dir + [u.name], u.data)
        case None => None
        case Some(first) => if rest.None? then None else Some(first + rest.value)
  }

  /** The tree after saving each supported upload of `ups` in `dir`, in order. */
  function SaveAll(t: Tree, dir: Path, ups: seq<Upload>): Tree
    decreases |ups|
  {
    if ups == [] then t
    else if Extension(ups[0].name) !in SupportedExtensions then SaveAll(t, dir, ups[1..])
    else SaveAll(t[dir + [ups[0].name] := File(ups[0].data)], dir, ups[1..])
  }

  /** When the loop runs to the end, every supported upload was saved in
      order and the documents are what their loaders returned, concatenated
      in upload order after those collected before. */
  lemma {:induction false} IngestSuccess(t: Tree, dir: Path, ups: seq<Upload>, load: Loader, docs: seq<Document>)
    ensures var r := Ingest(t, dir, ups, load, docs);
      r.0.Ok? ==> && LoadAll(dir, ups, load).Some?
                  && r.0.value == docs + LoadAll(dir, ups, load).value
                  && r.1 == SaveAll(t, dir, ups)
    decreases |ups|, 1
  {
    if ups != [] {
      var u := ups[0];
      var step := IngestOne(t, dir, u, load, docs);
      var rest := LoadAll(dir, ups[1..], load);
      if step.Skip? {
        assert Ingest(t, dir, ups, load, docs) == Ingest(t, dir, ups[1..], load, docs);
        assert LoadAll(dir, ups, load) == rest;
        assert SaveAll(t, dir, ups) == SaveAll(t, dir, ups[1..]);
        IngestSuccess(t, dir, ups[1..], load, docs);
      } else if step.Next? {
        NextStepSuccess(t, dir, ups, load, docs);
      }
    }
  }

  /** The inductive step of `IngestSuccess` for a supported upload that was
      saved and loaded. */
  lemma {:induction false} NextStepSuccess(t: Tree, dir: Path, ups: seq<Upload>, load: Loader, docs: seq<Document>)
    requires ups != [] && IngestOne(t, dir, ups[0], load, docs).Next?
    ensures var r := Ingest(t, dir, ups, load, docs);
      r.0.Ok? ==> && LoadAll(dir, ups, load).Some?
                  && r.0.value == docs + LoadAll(dir, ups, load).value
                  && r.1 == SaveAll(t, dir, ups)
    decreases |ups|, 0
  {
    var step := IngestOne(t, dir, ups[0], load, docs);
    var loaded := NextStepUnfold(t, dir, ups, load, docs);
    IngestSuccess(step.after, dir, ups[1..], load, step.docs);
    if Ingest(step.after, dir, ups[1..], load, step.docs).0.Ok? {
      var rest := LoadAll(dir, ups[1..], load).value;
      assert (docs + loaded) + rest == docs + (loaded + rest);
    }
  }

  /** One unfolding of the loop, of `LoadAll` and of `SaveAll` for a
      supported upload that was saved and loaded. */
  lemma NextStepUnfold(t: Tree, dir: Path, ups: seq<Upload>, load: Loader, docs: seq<Document>)
    returns (loaded: seq<Document>)
    requires ups != [] && IngestOne(t, dir, ups[0], load, docs).Next?
    ensures var step, rest := IngestOne(t, dir, ups[0], load, docs), LoadAll(dir, ups[1..], load);
      && step.docs == docs + loaded
      && Ingest(t, dir, ups, load, docs) == Ingest(step.after, dir, ups[1..], load, step.docs)
      && SaveAll(t, dir, ups) == SaveAll(step.after, dir, ups[1..])
      && LoadAll(dir, ups, load) == if rest.Some? then Some(loaded + rest.value) else None
  {
    var u := ups[0];
    loaded := load(LoaderFor(Extension(u.name)), dir + [u.name], u.data).value;
  }

  /** Once some document has been collected the loop never stops for lack of
      documents. */
  lemma {:induction false} NoEmptyErrorAfterDocuments(t: Tree, dir: Path, uploads: seq<Upload>,
                                                       load: Loader, docs: seq<Document>)
    requires docs != []
    ensures Ingest(t, dir, uploads, load, docs).0 != Err(NoDocumentsError)
    decreases |uploads|
  {
    if uploads != [] {
      var u := uploads[0];
      match IngestOne(t, dir, u, load, docs)
      case Skip =>
        NoEmptyErrorAfterDocuments(t, dir, uploads[1..], load, docs);
      case Stop(reason, _) =>
      case Next(t1, docs1) =>
        NoEmptyErrorAfterDocuments(t1, dir, uploads[1..], load, docs1);
    }
  }

  /** "No valid documents loaded" is raised exactly when the first supported
      upload is saved and its loader returns no document. */
  lemma NoDocumentsIff(t: Tree, dir: Path, uploads: seq<Upload>, load: Loader)
    ensures var s := Supported(uploads);
      Ingest(t, dir, uploads, load, []).0 == Err(NoDocumentsError)
      <==> s != [] && CanWrite(t, dir + [s[0].name])
           && load(LoaderFor(Extension(s[0].name)), dir + [s[0].name], s[0].data) == Some([])
  {
    IngestSkipsUnsupported(t, dir, uploads, load, []);
    var s := Supported(uploads);
    if s != [] {
      var u := s[0];
      assert u in s;
      var p := dir + [u.name];
      if CanWrite(t, p) {
        match load(LoaderFor(Extension(u.name)), p, u.data)
        case None =>
        case Some(loaded) =>
          assert [] + loaded == loaded;
          if loaded != [] {
            NoEmptyErrorAfterDocuments(t[p := File(u.data)], dir, s[1..], load, loaded);
          }
      }
    }
  }

  /** The loop writes only entries directly inside `dir`. */
  lemma {:induction false} IngestFrame(t: Tree, dir: Path, uploads: seq<Upload>, load: Loader, docs: seq<Document>)
    ensures var r := Ingest(t, dir, uploads, load, docs).1;
      forall q :: !IsChild(q, dir) ==> (q in r <==> q in t) && (q in t ==> r[q] == t[q])
    decreases |uploads|
  {
    if uploads != [] {
      var u := uploads[0];
      assert IsChild(dir + [u.name], dir);
      match IngestOne(t, dir, u, load, docs)
      case Skip =>
        IngestFrame(t, dir, uploads[1..], load, docs);
      case Stop(_, _) =>
      case Next(t1, docs1) =>
        IngestFrame(t1, dir, uploads[1..], load, docs1);
    }
  }

  // ---------------------------------------------------------------------
  // Directory arguments

  /** A directory argument: a string (the declared type and the default) or
      a `pathlib.Path`. */
  datatype PathArg = Str(text: string) | PathValue(path: Path)

  const DefaultTempDir: PathArg := Str("data/multi_document_chat")
  const DefaultFaissDir: PathArg := Str("faiss_index")

  /** The constructor calls `.mkdir` on the argument as given: a string has
      no such method. */
  function MkdirTarget(arg: PathArg): (r: Result<Path>)
    ensures r.Ok? <==> arg.PathValue?
    ensures r.Ok? ==> r.value == arg.path
  {
    match arg
    case Str(_) => Err(MkdirError)
    case PathValue(p) => Ok(p)
  }

  /** The constructor's defaults are strings, so as written it cannot
      succeed with them. */
  lemma DefaultsRejectedAsWritten()
    ensures MkdirTarget(DefaultTempDir).Err? && MkdirTarget(DefaultFaissDir).Err?
  {
  }

  /** `Path(arg)`: what the constructor evidently means to call `.mkdir` on. */
  function AsPath(arg: PathArg): (p: Path)
    ensures arg.PathValue? ==> p == arg.path
    ensures arg.Str? ==> p == Components(arg.text)
  {
    match arg
    case Str(text) => Components(text)
    case PathValue(p) => p
  }

  /** A string argument names the directory whose components it joins. */
  lemma AsPathOfJoined(parts: Path)
    requires forall k :: 0 <= k < |parts| ==> IsComponent(parts[k])
    ensures AsPath(Str(Join(parts, "/"))) == parts
  {
    ComponentsOfJoin(parts);
  }

  /** Creating each directory of `dirs` in order, stopping at the first that
      cannot be created: whether all were made, and the tree at the end. */
  function MakeAll(t: Tree, dirs: seq<Path>): (bool, Tree)
    decreases |dirs|
  {
    if dirs == [] then (true, t)
    else if !CanMakeDirs(t, dirs[0]) then (false, t)
    else MakeAll(WithDirs(t, dirs[0]), dirs[1..])
  }

  lemma MakeAllCons(t: Tree, d: Path, rest: seq<Path>)
    ensures MakeAll(t, [d] + rest) == if CanMakeDirs(t, d) then MakeAll(WithDirs(t, d), rest) else (false, t)
  {
    assert ([d] + rest)[0] == d && ([d] + rest)[1..] == rest;
  }

  /** When every directory was made, each one is a directory afterwards and
      every entry that existed is unchanged. */
  lemma {:induction false} MakeAllResult(t: Tree, dirs: seq<Path>)
    requires WellFormed(t)
    ensures var (ok, r) := MakeAll(t, dirs);
      ok ==> && (forall i :: 0 <= i < |dirs| ==> IsDir(r, dirs[i]))
             && (forall q :: q in t ==> q in r && r[q] == t[q])
    decreases |dirs|
  {
    if dirs != [] && CanMakeDirs(t, dirs[0]) {
      var d := dirs[0];
      var t1 := WithDirs(t, d);
      WithDirsWellFormed(t, d);
      MakeAllResult(t1, dirs[1..]);
      forall q | q in t ensures q in t1 && t1[q] == t[q] {
        if IsPrefixOf(q, d) {
          assert !IsFile(t, d[..|q|]) && t1[d[..|q|]] == Dir;
        }
      }
      var r := MakeAll(t, dirs).1;
      if MakeAll(t, dirs).0 {
        forall i | 0 <= i < |dirs| ensures IsDir(r, dirs[i]) {
          if i == 0 {
            if d != [] {
              assert d[..|d|] == d;
              assert IsDir(t1, d);
            }
          } else {
            assert dirs[i] == dirs[1..][i - 1];
          }
        }
      }
    }
  }

  // ---------------------------------------------------------------------
  // The ingestor

  class DocumentIngestor {
    const fs: Disk
    const tempDir: Path
    const faissDir: Path
    const sessionId: string
    const sessionTempDir: Path
    const sessionFaissDir: Path
    const modelLoader: ML.ModelLoader

    ghost predicate Valid()
      reads this, fs, modelLoader
    {
      && fs.Valid() && modelLoader.Valid()
      && sessionTempDir == tempDir + Components(sessionId)
      && sessionFaissDir == faissDir + Components(sessionId)
    }

    constructor Init(fs: Disk, tempDir: Path, faissDir: Path, sessionId: string, modelLoader: ML.ModelLoader)
      ensures this.fs == fs && this.tempDir == tempDir && this.faissDir == faissDir
      ensures this.sessionId == sessionId && this.modelLoader == modelLoader
      ensures sessionTempDir == tempDir + Components(sessionId)
      ensures sessionFaissDir == faissDir + Components(sessionId)
    {
      this.fs := fs;
      this.tempDir := tempDir;
      this.faissDir := faissDir;
      this.sessionId := sessionId;
      this.sessionTempDir := tempDir + Components(sessionId);
      this.sessionFaissDir := faissDir + Components(sessionId);
      this.modelLoader := modelLoader;
    }

    /** The directories the constructor creates, in the order it creates
        them; `base / session_id` splits the identifier into components. */
    static function InitDirs(tempDir: Path, faissDir: Path, id: string): seq<Path>
    {
      [tempDir, faissDir, tempDir + Components(id), faissDir + Components(id)]
    }

    /** The four `mkdir(parents=True, exist_ok=True)` calls of the
        constructor, in order; the first that fails ends the sequence. */
    static method MakeInitDirs(fs: Disk, tempDir: Path, faissDir: Path, id: string) returns (ok: bool)
      requires fs.Valid()
      modifies fs
      ensures fs.Valid()
      ensures (ok, fs.nodes) == MakeAll(old(fs.nodes), InitDirs(tempDir, faissDir, id))
    {
      var sessionTemp, sessionFaiss := tempDir + Components(id), faissDir + Components(id);
      assert InitDirs(tempDir, faissDir, id) == [tempDir] + [faissDir, sessionTemp, sessionFaiss];
      MakeAllCons(fs.nodes, tempDir, [faissDir, sessionTemp, sessionFaiss]);
      ok := fs.MakeDirs(tempDir);
      if !ok {
        return;
      }
      MakeAllCons(fs.nodes, faissDir, [sessionTemp, sessionFaiss]);
      ok := fs.MakeDirs(faissDir);
      if !ok {
        return;
      }
      MakeAllCons(fs.nodes, sessionTemp, [sessionFaiss]);
      ok := fs.MakeDirs(sessionTemp);
      if !ok {
        return;
      }
      MakeAllCons(fs.nodes, sessionFaiss, []);
      ok := fs.MakeDirs(sessionFaiss);
    }

    /** The constructor once both directory arguments are paths: create the
        base directories, resolve the session identifier, create the session
        directories, then build the model loader from the environment and the
        loaded configuration. */
    static method Open(fs: Disk, tempDir: Path, faissDir: Path, sessionId: Option<string>,
                       now: Timestamp, uuid: nat, env: ML.Env, config: ML.Yaml)
      returns (r: Result<DocumentIngestor>)
      requires fs.Valid() && ValidTimestamp(now) && uuid < UuidBound
      modifies fs
      ensures fs.Valid()
      ensures var id := ResolveSessionId(sessionId, now, uuid);
        var made := MakeAll(old(fs.nodes), InitDirs(tempDir, faissDir, id));
        && fs.nodes == made.1
        && (r.Ok? <==> made.0 && ML.AllKeysPresent(env) && config.YMap?)
        && (r.Ok? ==> && fresh(r.value) && r.value.Valid() && r.value.fs == fs
                      && r.value.tempDir == tempDir && r.value.faissDir == faissDir
                      && r.value.sessionId == id && r.value.modelLoader.config == config.fields
                      && r.value.sessionTempDir == tempDir + Components(id)
                      && r.value.sessionFaissDir == faissDir + Components(id))
        && (r.Err? ==> r.msg == InitError)
    {
      var id := ResolveSessionId(sessionId, now, uuid);
      var made := MakeInitDirs(fs, tempDir, faissDir, id);
      if !made {
        return Err(InitError);
      }
      var loader := ML.ModelLoader.Create(env, config);
      if loader.Err? {
        return Err(InitError);
      }
      var ingestor := new DocumentIngestor.Init(fs, tempDir, faissDir, id, loader.value);
      return Ok(ingestor);
    }

    /** `DocumentIngestor(temp_dir, faiss_dir, sesion_id)` as written:
        `.mkdir` is called on the arguments as given, so a string argument
        fails; a string `faiss_dir` fails only after `temp_dir` was made. */
    static method Create(fs: Disk, tempDir: PathArg, faissDir: PathArg, sessionId: Option<string>,
                         now: Timestamp, uuid: nat, env: ML.Env, config: ML.Yaml)
      returns (r: Result<DocumentIngestor>)
      requires fs.Valid() && ValidTimestamp(now) && uuid < UuidBound
      modifies fs
      ensures fs.Valid()
      ensures r.Ok? ==> tempDir.PathValue? && faissDir.PathValue?
      ensures tempDir.Str? ==> r == Err(InitError) && fs.nodes == old(fs.nodes)
      ensures tempDir.PathValue? && faissDir.Str? ==>
        && r == Err(InitError)
        && fs.nodes == if CanMakeDirs(old(fs.nodes), tempDir.path)
                       then WithDirs(old(fs.nodes), tempDir.path) else old(fs.nodes)
      ensures tempDir.PathValue? && faissDir.PathValue? ==>
        var id := ResolveSessionId(sessionId, now, uuid);
        var made := MakeAll(old(fs.nodes), InitDirs(tempDir.path, faissDir.path, id));
        && fs.nodes == made.1
        && (r.Ok? <==> made.0 && ML.AllKeysPresent(env) && config.YMap?)
        && (r.Ok? ==> && fresh(r.value) && r.value.Valid() && r.value.fs == fs
                      && r.value.tempDir == tempDir.path && r.value.faissDir == faissDir.path
                      && r.value.sessionId == id && r.value.modelLoader.config == config.fields
                      && r.value.sessionTempDir == tempDir.path + Components(id)
                      && r.value.sessionFaissDir == faissDir.path + Components(id))
        && (r.Err? ==> r.msg == InitError)
    {
      var temp := MkdirTarget(tempDir);
      if temp.Err? {
        return Err(InitError);
      }
      var faiss := MkdirTarget(faissDir);
      if faiss.Err? {
        var made := fs.MakeDirs(temp.value);
        return Err(InitError);
      }
      r := Open(fs, temp.value, faiss.value, sessionId, now, uuid, env, config);
    }

    /** The constructor with each directory argument converted by `Path(...)`
        first, so the string defaults work. */
    static method CreateFixed(fs: Disk, tempDir: PathArg, faissDir: PathArg, sessionId: Option<string>,
                              now: Timestamp, uuid: nat, env: ML.Env, config: ML.Yaml)
      returns (r: Result<DocumentIngestor>)
      requires fs.Valid() && ValidTimestamp(now) && uuid < UuidBound
      modifies fs
      ensures fs.Valid()
      ensures var id := ResolveSessionId(sessionId, now, uuid);
        var made := MakeAll(old(fs.nodes), InitDirs(AsPath(tempDir), AsPath(faissDir), id));
        && fs.nodes == made.1
        && (r.Ok? <==> made.0 && ML.AllKeysPresent(env) && config.YMap?)
        && (r.Ok? ==> && fresh(r.value) && r.value.Valid() && r.value.fs == fs
                      && r.value.tempDir == AsPath(tempDir) && r.value.faissDir == AsPath(faissDir)
                      && r.value.sessionId == id && r.value.modelLoader.config == config.fields
                      && r.value.sessionTempDir == AsPath(tempDir) + Components(id)
                      && r.value.sessionFaissDir == AsPath(faissDir) + Components(id))
        && (r.Err? ==> r.msg == InitError)
    {
      r := Open(fs, AsPath(tempDir), AsPath(faissDir), sessionId, now, uuid, env, config);
    }

    /** `_create_retriever(documents)`: split into chunks of 1000 characters
        overlapping by 300, embed with the configured model, save the index
        in the session's index directory and search it by similarity for the
        5 nearest chunks. */
    method CreateRetriever(documents: seq<Document>, build: IndexBuilder) returns (r: Result<Retriever>)
      requires Valid()
      ensures var emb := modelLoader.LoadEmbeddings();
        r.Ok? <==> emb.Ok? && build(documents, emb.value, sessionFaissDir)
      ensures r.Ok? ==> && r.value.documents == documents
                        && r.value.embeddings == modelLoader.LoadEmbeddings().value
                        && r.value.indexDir == sessionFaissDir
                        && r.value.chunkSize == ChunkSize && r.value.chunkOverlap == ChunkOverlap
                        && r.value.searchType == SearchType && r.value.k == TopK
                        && r.value.chunkOverlap < r.value.chunkSize
      ensures r.Err? ==> r.msg == RetrieverError
    {
      var embeddings := modelLoader.LoadEmbeddings();
      if embeddings.Err? {
        return Err(RetrieverError);
      }
      var built := build(documents, embeddings.value, sessionFaissDir);
      if !built {
        return Err(RetrieverError);
      }
      return Ok(Retriever(documents, ChunkSize, ChunkOverlap, embeddings.value,
                          sessionFaissDir, SearchType, TopK));
    }

    /** `ingest_files(uploaded_files)`: run the ingestion loop into the
        session's temporary directory, then build the retriever over what was
        loaded; any failure is reported as an ingestion error. */
    method IngestFiles(uploads: seq<Upload>, load: Loader, build: IndexBuilder) returns (r: Result<Retriever>)
      requires Valid()
      modifies fs
      ensures Valid()
      ensures var (res, t) := Ingest(old(fs.nodes), sessionTempDir, uploads, load, []);
        var emb := modelLoader.LoadEmbeddings();
        && fs.nodes == t
        && (r.Ok? <==> res.Ok? && emb.Ok? && build(res.value, emb.value, sessionFaissDir))
        && (r.Ok? ==> && r.value.documents == res.value && r.value.indexDir == sessionFaissDir
                      && r.value.embeddings == emb.value
                      && r.value.chunkSize == ChunkSize && r.value.chunkOverlap == ChunkOverlap
                      && r.value.searchType == SearchType && r.value.k == TopK)
        && (r.Err? ==> r.msg == IngestError)
    {
      ghost var t0 := fs.nodes;
      var documents: seq<Document> := [];
      var i := 0;
      while i < |uploads|
        invariant 0 <= i <= |uploads|
        invariant Valid()
        invariant Ingest(t0, sessionTempDir, uploads, load, [])
               == Ingest(fs.nodes, sessionTempDir, uploads[i..], load, documents)
      {
        var u := uploads[i];
        assert uploads[i..][0] == u && uploads[i..][1..] == uploads[i + 1..];
        var ext := Extension(u.name);
        if ext in SupportedExtensions {
          var tempPath := sessionTempDir + [u.name];
          var saved := fs.WriteFile(tempPath, u.data);
          if !saved {
            return Err(IngestError);
          }
          var docs := load(LoaderFor(ext), tempPath, u.data);
          if docs.None? {
            return Err(IngestError);
          }
          documents := documents + docs.value;
          if documents == [] {
            return Err(IngestError);
          }
        }
        i := i + 1;
      }
      assert uploads[|uploads|..] == [];
      r := CreateRetriever(documents, build);
      if r.Err? {
        return Err(IngestError);
      }
    }
  }
}

=== FILE: order.dfy ===
/** Python's ordering of `str` values (code point by code point, a proper
    prefix first) and the `sorted` listing of a directory's entry names. */
module Order {

  /** `a < b` on Python strings. */
  predicate LexLess(a: string, b: string)
    decreases |a|
  {
    |b| > 0 && (|a| == 0 || a[0] < b[0] || (a[0] == b[0] && LexLess(a[1..], b[1..])))
  }

  lemma {:induction false} LexLessIrreflexive(a: string)
    ensures !LexLess(a, a)
    decreases |a|
  {
    if |a| > 0 {
      LexLessIrreflexive(a[1..]);
    }
  }

  lemma {:induction false} LexLessAsymmetric(a: string, b: string)
    ensures !(LexLess(a, b) && LexLess(b, a))
    decreases |a|
  {
    if |a| > 0 && |b| > 0 && a[0] == b[0] {
      LexLessAsymmetric(a[1..], b[1..]);
    }
  }

  lemma {:induction false} LexLessTransitive(a: string, b: string, c: string)
    requires LexLess(a, b) && LexLess(b, c)
    ensures LexLess(a, c)
    decreases |a|
  {
    if |a| > 0 && a[0] == b[0] && b[0] == c[0] {
      LexLessTransitive(a[1..], b[1..], c[1..]);
    }
  }

  lemma {:induction false} LexLessTotal(a: string, b: string)
    ensures a == b || LexLess(a, b) || LexLess(b, a)
    decreases |a|
  {
    if |a| > 0 && |b| > 0 && a[0] == b[0] {
      LexLessTotal(a[1..], b[1..]);
      if a[1..] == b[1..] {
        assert a == [a[0]] + a[1..] && b == [b[0]] + b[1..];
      }
    }
  }

  /** A common prefix does not change the comparison. */
  lemma {:induction false} LexLessCommonPrefix(p: string, x: string, y: string)
    ensures LexLess(p + x, p + y) <==> LexLess(x, y)
    decreases |p|
  {
    if |p| > 0 {
      assert (p + x)[1..] == p[1..] + x && (p + y)[1..] == p[1..] + y;
      LexLessCommonPrefix(p[1..], x, y);
    } else {
      assert p + x == x && p + y == y;
    }
  }

  /** Two strings of the same length that differ decide the comparison of
      anything that extends them. */
  lemma {:induction false} LexLessExtend(a: string, b: string, x: string, y: string)
    requires |a| == |b| && LexLess(a, b)
    ensures LexLess(a + x, b + y)
    decreases |a|
  {
    if a[0] == b[0] {
      assert (a + x)[1..] == a[1..] + x && (b + y)[1..] == b[1..] + y;
      LexLessExtend(a[1..], b[1..], x, y);
    }
  }

  predicate IsLeast(m: string, s: set<string>)
  {
    m in s && forall x :: x in s && x != m ==> LexLess(m, x)
  }

  lemma {:induction false} LeastExists(s: set<string>)
    requires s != {}
    ensures exists m :: IsLeast(m, s)
    decreases |s|
  {
    var y :| y in s;
    if s == {y} {
      assert IsLeast(y, s);
    } else {
      LeastExists(s - {y});
      var m :| IsLeast(m, s - {y});
      LexLessTotal(m, y);
      if LexLess(m, y) {
        assert IsLeast(m, s);
      } else {
        forall x | x in s && x != y
          ensures LexLess(y, x)
        {
          if x != m {
            LexLessTransitive(y, m, x);
          }
        }
        assert IsLeast(y, s);
      }
    }
  }

  lemma LeastUnique(s: set<string>)
    ensures forall m, m' :: IsLeast(m, s) && IsLeast(m', s) ==> m == m'
  {
    forall m, m' | IsLeast(m, s) && IsLeast(m', s)
      ensures m == m'
    {
      LexLessAsymmetric(m, m');
    }
  }

  /** The smallest name of a non-empty set. */
  function Least(s: set<string>): (m: string)
    requires s != {}
    ensures IsLeast(m, s)
  {
    LeastExists(s);
    LeastUnique(s);
    var m :| IsLeast(m, s);
    m
  }

  /** `sorted(names)` of distinct names: every name once, in increasing order. */
  function SortedNames(s: set<string>): (r: seq<string>)
    ensures |r| == |s|
    ensures forall x :: x in r <==> x in s
    ensures forall i, j :: 0 <= i < j < |r| ==> LexLess(r[i], r[j])
    decreases |s|
  {
    if s == {} then []
    else
      var m := Least(s);
      [m] + SortedNames(s - {m})
  }

  /** `reversed(xs)`. */
  function Reversed(xs: seq<string>): (r: seq<string>)
    ensures |r| == |xs|
    ensures forall i :: 0 <= i < |xs| ==> r[i] == xs[|xs| - 1 - i]
  {
    if xs == [] then [] else Reversed(xs[1..]) + [xs[0]]
  }

  /** `sorted(names, reverse=True)` of distinct names. */
  function SortedDescending(s: set<string>): (r: seq<string>)
    ensures |r| == |s|
    ensures forall x :: x in r <==> x in s
    ensures forall i, j :: 0 <= i < j < |r| ==> LexLess(r[j], r[i])
  {
    var up := SortedNames(s);
    var r := Reversed(up);
    assert forall x :: x in r ==> x in up by {
      forall x | x in r ensures x in up {
        var i :| 0 <= i < |r| && r[i] == x;
        assert up[|up| - 1 - i] == x;
      }
    }
    assert forall x :: x in up ==> x in r by {
      forall x | x in up ensures x in r {
        var i :| 0 <= i < |up| && up[i] == x;
        assert r[|up| - 1 - i] == x;
      }
    }
    r
  }

  /** Position `i` of a list of length `n` is in the Python slice `xs[k:]`:
      its index, or for a negative `k` its negative index `i - n`, is at
      least `k`. */
  predicate InSlice(k: int, n: nat, i: nat)
  {
    if k >= 0 then k <= i else k <= i - n
  }

  /** The start index of the Python slice `xs[k:]` of a list of length `n`:
      the slice holds exactly the positions `InSlice` admits, so a
      non-negative `k` drops the first `k` elements and a negative `k` keeps
      the last `-k` (all of them when the list is shorter). */
  function SliceStart(k: int, n: nat): (s: nat)
    ensures s <= n
    ensures forall i :: 0 <= i < n ==> (s <= i <==> InSlice(k, n, i))
    ensures 0 <= k ==> s == if k <= n then k else n
    ensures k < 0 ==> n - s == if -k <= n then -k else n
  {
    if k >= 0 then (if k <= n then k else n)
    else if n + k >= 0 then n + k else 0
  }
}

=== FILE: session.dfy ===
/** Session identifiers, built the same way by the comparison ingestor and the
    multi-document ingestor:
    `session_id or f"session_{now:%Y%m%d_%H%M%S}_{uuid4().hex[:8]}"`.
    The UTC clock reading and the random uuid are parameters. */
module Session {
  import opened Wrappers
  import opened Text
  import opened Order
  import opened FileSystem

  /** A reading of `datetime.now(timezone.utc)`, to the second. */
  datatype Timestamp = Timestamp(year: nat, month: nat, day: nat, hour: nat, minute: nat, second: nat)

  /** The clock readings the model accepts: four-digit years (for which `%Y`
      has a fixed width) and the field ranges of `datetime`. */
  predicate ValidTimestamp(t: Timestamp)
  {
    && 1000 <= t.year <= 9999 && 1 <= t.month <= 12 && 1 <= t.day <= 31
    && t.hour <= 23 && t.minute <= 59 && t.second <= 59
  }

  /** Chronological order of two clock readings. */
  predicate Before(a: Timestamp, b: Timestamp)
  {
    || a.year < b.year
    || (a.year == b.year && a.month < b.month)
    || (a.year == b.year && a.month == b.month && a.day < b.day)
    || (a.year == b.year && a.month == b.month && a.day == b.day && a.hour < b.hour)
    || (a.year == b.year && a.month == b.month && a.day == b.day && a.hour == b.hour
        && a.minute < b.minute)
    || (a.year == b.year && a.month == b.month && a.day == b.day && a.hour == b.hour
        && a.minute == b.minute && a.second < b.second)
  }

  /** `t.strftime('%Y%m%d_%H%M%S')`: fifteen characters, all decimal digits
      except the underscore between the date and the time. */
  function Stamp(t: Timestamp): (s: string)
    requires ValidTimestamp(t)
    ensures |s| == 15 && s[8] == '_'
    ensures forall i :: 0 <= i < |s| && i != 8 ==> IsDigit(s[i])
  {
    Pad(t.year, 4) + (Pad(t.month, 2) + (Pad(t.day, 2)
      + ("_" + (Pad(t.hour, 2) + (Pad(t.minute, 2) + Pad(t.second, 2))))))
  }

  /** Upper bound (exclusive) of the integer value of a UUID: 16^32 = 2^128. */
  const UuidBound: nat := Pow(16, 32)

  /** `uuid.hex[:8]`: the first 8 of the 32 hexadecimal digits. */
  function UuidPrefix(u: nat): (s: string)
    requires u < UuidBound
    ensures |s| == 8
    ensures forall i :: 0 <= i < |s| ==> IsHexDigit(s[i])
  {
    Hex(u, 32)[..8]
  }

  const IdPrefix: string := "session_"

  /** The identifier generated when none is supplied. */
  function GeneratedId(now: Timestamp, uuid: nat): (id: string)
    requires ValidTimestamp(now) && uuid < UuidBound
  {
    IdPrefix + Stamp(now) + "_" + UuidPrefix(uuid)
  }

  /** `session_id or <generated>`: a supplied identifier is used verbatim
      unless it is empty (the empty string is falsy in Python), so the
      result is never empty. A supplied identifier may still name several
      path components, or none ("."); a generated one is always a single
      component (`GeneratedIdIsOneComponent`). */
  function ResolveSessionId(supplied: Option<string>, now: Timestamp, uuid: nat): (id: string)
    requires ValidTimestamp(now) && uuid < UuidBound
    ensures id != ""
    ensures supplied.Some? && supplied.value != "" ==> id == supplied.value
    ensures supplied.None? || supplied.value == "" ==> id == GeneratedId(now, uuid)
  {
    if supplied.Some? && supplied.value != "" then supplied.value else GeneratedId(now, uuid)
  }

  /** A generated identifier has a fixed width of 32 characters: the prefix,
      15 characters of timestamp, an underscore and the first 8 lower-case
      hexadecimal digits of the uuid. */
  lemma GeneratedIdShape(now: Timestamp, uuid: nat)
    requires ValidTimestamp(now) && uuid < UuidBound
    ensures var id := GeneratedId(now, uuid);
      && |id| == 32 && id[..8] == IdPrefix && id[8..23] == Stamp(now) && id[23] == '_'
      && id[24..] == UuidPrefix(uuid) && forall i :: 24 <= i < 32 ==> IsHexDigit(id[i])
  {
    var id := GeneratedId(now, uuid);
    assert id[24..] == UuidPrefix(uuid);
  }

  /** A generated identifier holds no separator and is neither empty nor
      ".", so `base_dir / session_id` is a sub-directory directly inside the
      base. */
  lemma GeneratedIdIsOneComponent(now: Timestamp, uuid: nat)
    requires ValidTimestamp(now) && uuid < UuidBound
    ensures Components(GeneratedId(now, uuid)) == [GeneratedId(now, uuid)]
  {
    var id := GeneratedId(now, uuid);
    GeneratedIdShape(now, uuid);
    forall i | 0 <= i < |id| ensures id[i] != '/' {
      if i < 8 {
        assert id[i] == IdPrefix[i];
      } else if i < 23 {
        assert id[i] == Stamp(now)[i - 8];
      }
    }
    assert IndexOf(id, '/') < 0;
  }

  /** Fixed-width zero padding turns numeric order into string order. */
  lemma {:induction false} PadOrder(a: nat, b: nat, width: nat)
    requires a < b < Pow(10, width)
    ensures LexLess(Pad(a, width), Pad(b, width))
  {
    var da, db := [Digit(a % 10)], [Digit(b % 10)];
    var pa, pb := Pad(a / 10, width - 1), Pad(b / 10, width - 1);
    assert Pad(a, width) == pa + da && Pad(b, width) == pb + db;
    if a / 10 < b / 10 {
      PadOrder(a / 10, b / 10, width - 1);
      LexLessExtend(pa, pb, da, db);
    } else {
      assert Digit(a % 10) as int < Digit(b % 10) as int;
      assert LexLess(da, db);
      LexLessCommonPrefix(pa, da, db);
    }
  }

  /** One field of a fixed-width record: a smaller field decides the order,
      an equal field passes the decision on to the rest. */
  lemma FieldStep(x: string, y: string, rx: string, ry: string)
    requires |x| == |y|
    ensures LexLess(x, y) ==> LexLess(x + rx, y + ry)
    ensures x == y ==> (LexLess(x + rx, y + ry) <==> LexLess(rx, ry))
  {
    if LexLess(x, y) {
      LexLessExtend(x, y, rx, ry);
    }
    if x == y {
      LexLessCommonPrefix(x, rx, ry);
    }
  }

  lemma {:induction false} StampOrder(a: Timestamp, b: Timestamp)
    requires ValidTimestamp(a) && ValidTimestamp(b) && Before(a, b)
    ensures LexLess(Stamp(a), Stamp(b))
  {
    var s5, t5 := Pad(a.minute, 2) + Pad(a.second, 2), Pad(b.minute, 2) + Pad(b.second, 2);
    var s4, t4 := Pad(a.hour, 2) + s5, Pad(b.hour, 2) + t5;
    var s3, t3 := "_" + s4, "_" + t4;
    var s2, t2 := Pad(a.day, 2) + s3, Pad(b.day, 2) + t3;
    var s1, t1 := Pad(a.month, 2) + s2, Pad(b.month, 2) + t2;
    assert Stamp(a) == Pad(a.year, 4) + s1 && Stamp(b) == Pad(b.year, 4) + t1;
    if a.year < b.year {
      PadOrder(a.year, b.year, 4);
    } else if a.month < b.month {
      PadOrder(a.month, b.month, 2);
      FieldStep(Pad(a.month, 2), Pad(b.month, 2), s2, t2);
    } else if a.day < b.day {
      PadOrder(a.day, b.day, 2);
      FieldStep(Pad(a.day, 2), Pad(b.day, 2), s3, t3);
      FieldStep(Pad(a.month, 2), Pad(b.month, 2), s2, t2);
    } else if a.hour < b.hour {
      PadOrder(a.hour, b.hour, 2);
      FieldStep(Pad(a.hour, 2), Pad(b.hour, 2), s5, t5);
      FieldStep("_", "_", s4, t4);
      FieldStep(Pad(a.day, 2), Pad(b.day, 2), s3, t3);
      FieldStep(Pad(a.month, 2), Pad(b.month, 2), s2, t2);
    } else if a.minute < b.minute {
      PadOrder(a.minute, b.minute, 2);
      FieldStep(Pad(a.minute, 2), Pad(b.minute, 2), Pad(a.second, 2), Pad(b.second, 2));
      FieldStep(Pad(a.hour, 2), Pad(b.hour, 2), s5, t5);
      FieldStep("_", "_", s4, t4);
      FieldStep(Pad(a.day, 2), Pad(b.day, 2), s3, t3);
      FieldStep(Pad(a.month, 2), Pad(b.month, 2), s2, t2);
    } else {
      PadOrder(a.second, b.second, 2);
      FieldStep(Pad(a.minute, 2), Pad(b.minute, 2), Pad(a.second, 2), Pad(b.second, 2));
      FieldStep(Pad(a.hour, 2), Pad(b.hour, 2), s5, t5);
      FieldStep("_", "_", s4, t4);
      FieldStep(Pad(a.day, 2), Pad(b.day, 2), s3, t3);
      FieldStep(Pad(a.month, 2), Pad(b.month, 2), s2, t2);
    }
    FieldStep(Pad(a.year, 4), Pad(b.year, 4), s1, t1);
  }

  /** An identifier generated earlier sorts before one generated later,
      whatever the random suffixes. */
  lemma GeneratedIdsFollowTime(a: Timestamp, ua: nat, b: Timestamp, ub: nat)
    requires ValidTimestamp(a) && ValidTimestamp(b) && ua < UuidBound && ub < UuidBound
    requires Before(a, b)
    ensures LexLess(GeneratedId(a, ua), GeneratedId(b, ub))
  {
    var ra, rb := "_" + UuidPrefix(ua), "_" + UuidPrefix(ub);
    assert GeneratedId(a, ua) == IdPrefix + (Stamp(a) + ra);
    assert GeneratedId(b, ub) == IdPrefix + (Stamp(b) + rb);
    StampOrder(a, b);
    LexLessExtend(Stamp(a), Stamp(b), ra, rb);
    LexLessCommonPrefix(IdPrefix, Stamp(a) + ra, Stamp(b) + rb);
  }

  lemma BeforeTotal(a: Timestamp, b: Timestamp)
    requires a != b
    ensures Before(a, b) || Before(b, a)
  {
  }

  /** For identifiers generated at different seconds, string order and
      creation order are the same order. */
  lemma GeneratedIdOrderIsCreationOrder(a: Timestamp, ua: nat, b: Timestamp, ub: nat)
    requires ValidTimestamp(a) && ValidTimestamp(b) && ua < UuidBound && ub < UuidBound
    requires a != b
    ensures LexLess(GeneratedId(a, ua), GeneratedId(b, ub)) <==> Before(a, b)
  {
    BeforeTotal(a, b);
    if Before(a, b) {
      GeneratedIdsFollowTime(a, ua, b, ub);
    } else {
      GeneratedIdsFollowTime(b, ub, a, ua);
      LexLessAsymmetric(GeneratedId(a, ua), GeneratedId(b, ub));
    }
  }
}

=== FILE: text.dfy ===
/** The string operations of Python that the core relies on: `str.lower`,
    `str.endswith`, `str.strip`, `str.join`, `str(int)`, `Path.suffix` and the
    zero-padded fields of `strftime` and `uuid.hex`. */
module Text {

  /** Lower-cases ASCII letters. `str.lower` also folds non-ASCII letters, but
      no non-ASCII character lower-cases to one of the characters of ".pdf",
      ".docx" or ".txt", so every comparison against those strings decides
      the same with this function. */
  function LowerChar(c: char): char
  {
    if c == 'A' then 'a'
    else if c == 'B' then 'b'
    else if c == 'C' then 'c'
    else if c == 'D' then 'd'
    else if c == 'E' then 'e'
    else if c == 'F' then 'f'
    else if c == 'G' then 'g'
    else if c == 'H' then 'h'
    else if c == 'I' then 'i'
    else if c == 'J' then 'j'
    else if c == 'K' then 'k'
    else if c == 'L' then 'l'
    else if c == 'M' then 'm'
    else if c == 'N' then 'n'
    else if c == 'O' then 'o'
    else if c == 'P' then 'p'
    else if c == 'Q' then 'q'
    else if c == 'R' then 'r'
    else if c == 'S' then 's'
    else if c == 'T' then 't'
    else if c == 'U' then 'u'
    else if c == 'V' then 'v'
    else if c == 'W' then 'w'
    else if c == 'X' then 'x'
    else if c == 'Y' then 'y'
    else if c == 'Z' then 'z'
    else c
  }

  function Lower(s: string): (r: string)
    ensures |r| == |s|
    ensures forall i :: 0 <= i < |s| ==> r[i] == LowerChar(s[i])
  {
    seq(|s|, i requires 0 <= i < |s| => LowerChar(s[i]))
  }

  predicate IsUpper(c: char)
  {
    'A' <= c <= 'Z'
  }

  /** An upper-case letter becomes the letter 32 code points above it;
      every other character is kept. */
  lemma LowerCharCases(c: char)
    ensures !IsUpper(LowerChar(c))
    ensures IsUpper(c) ==> LowerChar(c) as int == c as int + 32
    ensures !IsUpper(c) ==> LowerChar(c) == c
  {
  }

  /** Lower-casing leaves no upper-case letter, keeps every other character
      where it was, and lower-casing again changes nothing. */
  lemma LowerFolds(s: string)
    ensures forall i :: 0 <= i < |s| ==> !IsUpper(Lower(s)[i])
    ensures forall i :: 0 <= i < |s| && IsUpper(s[i]) ==> Lower(s)[i] as int == s[i] as int + 32
    ensures forall i :: 0 <= i < |s| && !IsUpper(s[i]) ==> Lower(s)[i] == s[i]
    ensures Lower(Lower(s)) == Lower(s)
  {
    forall i | 0 <= i < |s|
      ensures !IsUpper(Lower(s)[i])
      ensures IsUpper(s[i]) ==> Lower(s)[i] as int == s[i] as int + 32
      ensures !IsUpper(s[i]) ==> Lower(s)[i] == s[i]
      ensures Lower(Lower(s))[i] == Lower(s)[i]
    {
      LowerCharCases(s[i]);
      LowerCharCases(LowerChar(s[i]));
    }
  }

  predicate EndsWith(s: string, suffix: string)
  {
    |suffix| <= |s| && s[|s| - |suffix|..] == suffix
  }

  /** `s.rfind(c)`: the index of an occurrence of `c`, or -1
      (`LastIndexOfIsLast` shows it is the last one). */
  function LastIndexOf(s: string, c: char): (i: int)
    ensures -1 <= i < |s|
    ensures 0 <= i ==> s[i] == c
  {
    LastIndexBelow(s, c, |s|)
  }

  /** The index of the last occurrence of `c` among the first `k` characters, or -1. */
  function LastIndexBelow(s: string, c: char, k: nat): (i: int)
    requires k <= |s|
    ensures -1 <= i < k
    ensures 0 <= i ==> s[i] == c
  {
    if k == 0 then -1 else if s[k - 1] == c then k - 1 else LastIndexBelow(s, c, k - 1)
  }

  lemma {:induction false} LastIndexBelowIsLast(s: string, c: char, k: nat)
    requires k <= |s|
    ensures forall j :: LastIndexBelow(s, c, k) < j < k ==> s[j] != c
  {
    if k > 0 && s[k - 1] != c {
      LastIndexBelowIsLast(s, c, k - 1);
    }
  }

  /** No occurrence of `c` follows the one `rfind` reports. */
  lemma LastIndexOfIsLast(s: string, c: char)
    ensures forall j :: LastIndexOf(s, c) < j < |s| ==> s[j] != c
  {
    LastIndexBelowIsLast(s, c, |s|);
  }

  /** `s.find(c)`: the index of the first occurrence of `c`, or -1. */
  function IndexOf(s: string, c: char): (i: int)
    ensures -1 <= i < |s|
    ensures 0 <= i ==> s[i] == c
    ensures forall j :: 0 <= j < |s| && (i < 0 || j < i) ==> s[j] != c
  {
    if |s| == 0 then -1
    else if s[0] == c then 0
    else
      var k := IndexOf(s[1..], c);
      if k < 0 then -1 else k + 1
  }

  /** `PurePath(name).suffix` of a single path component, by the rule of
      CPython up to 3.13: the text from the last dot, unless that dot is the
      first or the last character. (Later releases treat names with leading
      dots differently.) */
  function Suffix(name: string): (ext: string)
  {
    var i := LastIndexOf(name, '.');
    if 0 < i < |name| - 1 then name[i..] else ""
  }

  /** A non-empty suffix is a dot followed by at least one character and no
      further dot, and it is a proper tail of the name. */
  lemma SuffixShape(name: string)
    ensures var ext := Suffix(name);
      ext == "" || (2 <= |ext| < |name| && ext[0] == '.' && EndsWith(name, ext)
                    && forall j :: 1 <= j < |ext| ==> ext[j] != '.')
  {
    LastIndexOfIsLast(name, '.');
  }

  /** Splitting a name into a non-empty stem and a dotted extension and
      asking for the suffix gives the extension back. */
  lemma SuffixOfStemAndExtension(stem: string, ext: string)
    requires |stem| > 0 && |ext| >= 2 && ext[0] == '.'
    requires forall j :: 1 <= j < |ext| ==> ext[j] != '.'
    ensures Suffix(stem + ext) == ext
  {
    var name := stem + ext;
    var i := LastIndexOf(name, '.');
    LastIndexOfIsLast(name, '.');
    assert name[|stem|] == '.';
    assert i >= |stem|;
    assert forall j :: |stem| < j < |name| ==> name[j] == ext[j - |stem|];
    assert name[i..] == ext;
  }

  /** A name without a dot, or whose only dot is its first character (a
      "hidden" name such as ".pdf"), has no suffix. */
  lemma SuffixWithoutInnerDot(name: string)
    requires forall j :: 0 < j < |name| ==> name[j] != '.'
    ensures Suffix(name) == ""
  {
    LastIndexOfIsLast(name, '.');
  }

  /** `PurePath(name).suffix.lower()`, built character by character from the
      last dot. */
  function Extension(name: string): string
  {
    var i := LastIndexOf(name, '.');
    if 0 < i < |name| - 1 then seq(|name| - i, k requires 0 <= k < |name| - i => LowerChar(name[i + k]))
    else ""
  }

  lemma ExtensionIsLowerOfSuffix(name: string)
    ensures Extension(name) == Lower(Suffix(name))
  {
    var i := LastIndexOf(name, '.');
    if 0 < i < |name| - 1 {
      assert forall k :: 0 <= k < |name| - i ==> Lower(Suffix(name))[k] == LowerChar(name[i + k]);
    }
  }

  /** The characters for which Python's `str.isspace` holds. */
  predicate IsSpace(c: char)
  {
    || c == ' ' || '\t' <= c <= '\r' || '\U{1C}' <= c <= '\U{1F}'
    || c == '\U{85}' || c == '\U{A0}' || c == '\U{1680}'
    || '\U{2000}' <= c <= '\U{200A}' || c == '\U{2028}' || c == '\U{2029}'
    || c == '\U{202F}' || c == '\U{205F}' || c == '\U{3000}'
  }

  /** `s.strip() == ""`: every character is whitespace. */
  predicate IsBlank(s: string)
  {
    forall i :: 0 <= i < |s| ==> IsSpace(s[i])
  }

  /** `sep.join(parts)`. */
  function Join(parts: seq<string>, sep: string): string
  {
    if |parts| == 0 then ""
    else if |parts| == 1 then parts[0]
    else parts[0] + sep + Join(parts[1..], sep)
  }

  /** When no part is empty, the join is empty exactly when there are no parts. */
  lemma {:induction false} JoinEmptyIff(parts: seq<string>, sep: string)
    requires forall k :: 0 <= k < |parts| ==> parts[k] != ""
    ensures Join(parts, sep) == "" <==> parts == []
  {
    if |parts| > 1 {
      assert |Join(parts, sep)| >= |parts[0]|;
    }
  }

  // ---- decimal and hexadecimal digits ----

  predicate IsDigit(c: char)
  {
    '0' <= c <= '9'
  }

  function Digit(d: nat): (c: char)
    requires d < 10
    ensures IsDigit(c) && c as int - '0' as int == d
  {
    ('0' as int + d) as char
  }

  predicate IsHexDigit(c: char)
  {
    IsDigit(c) || 'a' <= c <= 'f'
  }

  /** The value of a lower-case hexadecimal digit. */
  function HexDigitValue(c: char): nat
    requires IsHexDigit(c)
  {
    if IsDigit(c) then c as int - '0' as int else c as int - 'a' as int + 10
  }

  function HexDigit(d: nat): (c: char)
    requires d < 16
    ensures IsHexDigit(c) && HexDigitValue(c) == d
  {
    if d < 10 then Digit(d) else ('a' as int + (d - 10)) as char
  }

  function Pow(base: nat, e: nat): (r: nat)
    requires base > 0
    ensures r > 0
  {
    if e == 0 then 1 else var q := Pow(base, e - 1); assert base * q >= q; base * q
  }

  /** The value of a string of decimal digits. */
  function DigitsValue(s: string): nat
    requires forall i :: 0 <= i < |s| ==> IsDigit(s[i])
  {
    if s == [] then 0
    else
      assert IsDigit(s[|s| - 1]);
      DigitsValue(s[..|s| - 1]) * 10 + (s[|s| - 1] as int - '0' as int)
  }

  /** `str(n)`: decimal digits without leading zeros. */
  function Decimal(n: nat): (s: string)
    ensures |s| >= 1
    ensures forall i :: 0 <= i < |s| ==> IsDigit(s[i])
    ensures s[0] == '0' ==> n == 0
    decreases n
  {
    if n < 10 then [Digit(n)] else Decimal(n / 10) + [Digit(n % 10)]
  }

  lemma {:induction false} DecimalRoundTrip(n: nat)
    ensures DigitsValue(Decimal(n)) == n
    decreases n
  {
    if n >= 10 {
      var s := Decimal(n);
      assert s[..|s| - 1] == Decimal(n / 10);
      DecimalRoundTrip(n / 10);
    }
  }

  /** `n` written with exactly `width` decimal digits, zero-padded on the left
      (the `%Y`, `%m`, `%d`, `%H`, `%M` and `%S` fields of `strftime`). */
  function Pad(n: nat, width: nat): (s: string)
    requires n < Pow(10, width)
    ensures |s| == width
    ensures forall i :: 0 <= i < |s| ==> IsDigit(s[i])
  {
    if width == 0 then "" else Pad(n / 10, width - 1) + [Digit(n % 10)]
  }

  lemma {:induction false} PadRoundTrip(n: nat, width: nat)
    requires n < Pow(10, width)
    ensures DigitsValue(Pad(n, width)) == n
  {
    if width > 0 {
      var s := Pad(n, width);
      assert s[..|s| - 1] == Pad(n / 10, width - 1);
      PadRoundTrip(n / 10, width - 1);
    }
  }

  /** `n` written with exactly `width` lower-case hexadecimal digits (`'%032x'`
      gives `uuid.UUID.hex`). */
  function Hex(n: nat, width: nat): (s: string)
    requires n < Pow(16, width)
    ensures |s| == width
    ensures forall i :: 0 <= i < |s| ==> IsHexDigit(s[i])
  {
    if width == 0 then "" else Hex(n / 16, width - 1) + [HexDigit(n % 16)]
  }

  /** The value of a string of lower-case hexadecimal digits. */
  function HexValue(s: string): nat
    requires forall i :: 0 <= i < |s| ==> IsHexDigit(s[i])
  {
    if s == [] then 0
    else
      assert IsHexDigit(s[|s| - 1]);
      HexValue(s[..|s| - 1]) * 16 + HexDigitValue(s[|s| - 1])
  }

  lemma {:induction false} HexRoundTrip(n: nat, width: nat)
    requires n < Pow(16, width)
    ensures HexValue(Hex(n, width)) == n
  {
    if width > 0 {
      var s := Hex(n, width);
      assert s[..|s| - 1] == Hex(n / 16, width - 1);
      HexRoundTrip(n / 16, width - 1);
    }
  }
}

=== FILE: wrappers.dfy ===
/** Failure-carrying values shared by the model. Every exception that leaves
    an operation of the source becomes `Err`, carrying that exception's
    message: where the source catches an error and re-raises it as a
    DocumentPortalException, the message of the re-raised exception; for an
    error Python itself raises (an `OSError`, an `AttributeError`), a short
    description of it. */
module Wrappers {

  datatype Option<+T> = None | Some(value: T)

  datatype Result<+T> = Ok(value: T) | Err(msg: string)

  /** A result without a value: the outcome of an operation run for its effect. */
  datatype Outcome = Pass | Fail(msg: string)
}
